=== FILE: README.md ===
# Referral ledger of the Microapp tap game, in Dafny

The Microapp backend keeps a three-tier referral programme next to its tap-to-earn game.
Every participant can hold a referral code. A newcomer who applies someone's code is
bound to that referrer, and one persisted referral edge is written for each of up to
three ancestors (tier 1 = the referrer, tier 2 = its referrer, tier 3 = the one above).
When a participant earns xp, the ancestors get 10 %, 5 % and 2.5 % of it.

This happens along two separate paths:

- `processReferralReward` pays along the persisted edges.
- `distributeReferralXP` walks the live `referredBy` links.

Next to the programme sit the small per-participant transitions: the daily claim, boost,
GPU upgrade and profile update.

The model is purely functional:

- A `Store` is a map from participant id to `User` record, plus the sequence of referral
  `Edge`s.
- Handlers that can refuse a request return a `Result`. `updateProfile` works on the one
  authenticated `User`; the others take the store. `getReferralStats` is a method, because
  its grouping is a loop.
- The two reward distributions, `processReferralReward` and `distributeReferralXP`, return
  the new store directly: the source skips or swallows their per-edge failures.
- A rejected request returns the reason and leaves no new store, because each source
  transaction is all-or-nothing.
- Codes are unique across participants (`Ledger.CodesUnique`). The lookup of a code then
  names one referrer. Codes assigned by `generateReferralCode` keep this property, because
  its loop draws until the code is free (controllers/referralController.js:59-66);
  `ReferralController.GenerateReferralCodeKeepsCodesUnique` proves it. The properties of
  `applyReferralCode` take it as a precondition.

Modules, one per source concern:

| module | file | models |
|---|---|---|
| `Wrappers` | wrappers.dfy | `Option` / `Result` |
| `ReferralUtils` | referral_utils.dfy | utils/referralUtils.js |
| `Ledger` | ledger.dfy | the `User` record the handlers touch, and models/Referral.js as `Edge` with its field and index constraints |
| `ReferralChain` | referral_chain.dfy | `validateAndGetReferralChain`, as a loop and as a reference definition |
| `ReferralController` | referral_controller.dfy | code generation, `applyReferralCode`, `processReferralReward`, and the aggregations of `getReferralStats` / `getUserReferralRewards` |
| `UserController` | user_controller.dfy | `distributeReferralXP`, the daily claim and its check, `boost`, `upgradeGPU`, `updateProfile` |
| `RewardPaths` | reward_paths.dfy | how the two reward paths relate |
| `Findings` | findings.dfy | the two defects below, as written and corrected |

## Model

| member | source | states |
|---|---|---|
| ReferralUtils.GenerateReferralCode | utils/referralUtils.js:4-6 | The code made from four random bytes is 8 upper-case hex characters and passes validation. |
| ReferralUtils.GeneratedCodeRoundTrip | utils/referralUtils.js:4-6 | Hex-decoding a generated code gives back the four random bytes it was made from. |
| ReferralUtils.GeneratedCodesDistinct | utils/referralUtils.js:4-6 | Distinct random draws give distinct codes. |
| ReferralUtils.ValidateReferralCodeIff | utils/referralUtils.js:8-11 | A string is accepted exactly when it has 8 characters and every one is a hex digit of either case. |
| ReferralUtils.ValidateRejectsMissingOrEmpty | utils/referralUtils.js:9 | A missing or non-string value and the empty string are rejected. |
| ReferralUtils.ValidateIgnoresCase | utils/referralUtils.js:10 | Because of the `i` flag, a code and its upper-cased form are accepted alike. |
| ReferralUtils.CalculateReferralReward | utils/referralUtils.js:13-26 | Fails with the level error outside tiers 1..3, else with the xp error for negative xp, else succeeds. The reward lies between 0 and xp and is the floor of xp times 10 %, 5 % or 2.5 %. |
| ReferralUtils.RewardScheduleOnThousand | utils/referralUtils.js:24-25 | 1000 xp pays 100, 50 and 25 on tiers 1, 2 and 3, and tier 4 is refused. |
| ReferralUtils.RewardDecreasesWithTier | utils/referralUtils.js:24-25 | A deeper tier never earns more than a shallower one for the same xp. |
| ReferralUtils.RewardMonotoneInXp | utils/referralUtils.js:24-25 | On a fixed tier, more xp never earns a smaller reward. |
| ReferralChain.ChainOf | controllers/referralController.js:8-36 | The reference chain has at most `maxTier` entries, numbered tier 1, 2, … in order. |
| ReferralChain.ValidateAndGetReferralChain | controllers/referralController.js:8-36 | The loop with its visited set returns exactly the reference chain: the circular-chain error, the self-referral error, or the links up to the first unresolved id or the tier bound. |
| ReferralChain.ChainRejection | controllers/referralController.js:14-22 | The walk succeeds exactly when the ids it examines are pairwise distinct and none of them is the applicant. A cycle is reported only when an id repeats, and a self-referral only when the applicant is examined. |
| ReferralChain.ChainLinkage | controllers/referralController.js:24-32 | On success the chain starts at the referrer, each entry's `referredBy` is the next entry, and the chain ends at the tier bound, at a missing referrer, or at an id with no record. |
| ReferralChain.ChainDistinct | controllers/referralController.js:14-22 | A successful chain never repeats an ancestor and never contains the applicant. |
| ReferralChain.LineageLinked | controllers/referralController.js:24-31 | Every examined id but the last has a record whose `referredBy` is the next examined id. |
| ReferralChain.LineageAvoiding | controllers/referralController.js:14-33 | Re-pointing one participant's referrer does not change a walk that never passes that participant. |
| ReferralController.FirstFreeDraw | controllers/referralController.js:59-66 | The attempt chosen is the first of the five draws whose code nobody holds. When there is none, all five codes are taken. |
| ReferralController.GenerateReferralCode | controllers/referralController.js:38-88 | Unknown participant: not-found. A participant who has a code gets it back with the store unchanged. Otherwise the first free code of five attempts is assigned and nothing else changes, or the call fails when all five are taken. |
| ReferralController.GenerateReferralCodeIdempotent | controllers/referralController.js:47-52 | Asking a second time returns the same code and changes nothing, whatever the random draws. |
| ReferralController.GenerateReferralCodeKeepsCodesUnique | controllers/referralController.js:59-73 | Assigning a code keeps codes unique across participants, and a newly assigned code is well formed. |
| ReferralController.CodeOwner | controllers/referralController.js:109-112 | The lookup by code finds a participant exactly when someone holds the code, and that participant holds it. |
| ReferralController.ApplyReferralCode | controllers/referralController.js:90-154 | Each error is raised in source order: malformed code, unknown applicant, already bound, unknown code, own code. On success the applicant is bound to the code's owner and its `referralChain` lists the chain's ancestors. The owner's `referrals` gains the applicant, one active zero-total edge per tier is appended, and nothing else changes. |
| ReferralController.ApplyFollowsChain | controllers/referralController.js:118 | Once the request checks pass, a binding fails exactly when the chain walk from the code's owner fails, and with the walk's own error. |
| ReferralController.ReapplyRejected | controllers/referralController.js:105-107 | Once bound, a participant is refused every later code: with already-used for a well-formed code, with malformed-code otherwise. |
| ReferralController.ApplyKeepsBalance | controllers/referralController.js:120-135 | A binding keeps every participant's referral earnings equal to the rewards recorded on its outgoing edges. |
| ReferralController.ApplyKeepsEdgesValid | models/Referral.js:18-45 | The edges a binding writes satisfy the schema: a required 8-character code, tier 1..3, the active default status and no reward date. Their totals start at 0, so the model's invariant of non-negative totals holds. Existing edges are unchanged. |
| ReferralController.PayoutIsReward | controllers/referralController.js:168-186 | An active edge into the earner, whose referrer has a record, pays exactly the calculated reward for its tier. An edge that is inactive, leads into someone else or comes from a referrer with no record pays nothing, and so does a negative gain. |
| ReferralController.ProcessReferralReward | controllers/referralController.js:156-201 | Each participant's balance and referral earnings grow by the sum of the payouts of its edges into the earner. Each edge grows by its own payout and gets the reward date when the payout is positive. No other edge changes. |
| ReferralController.CreditAllAddsEarnings | controllers/referralController.js:173-176 | Crediting the edges one by one adds to each referrer the sum of its edges' payouts. |
| ReferralController.ProcessRewardMonotone | controllers/referralController.js:168-186 | Rewards never lower a balance, a referral total or an edge total. |
| ReferralController.ProcessRewardKeepsBalance | controllers/referralController.js:173-176 | Because each reward lands on the edge and on the referrer alike, earnings and edge totals keep agreeing. |
| ReferralController.ProcessRewardKeepsEdgesValid | models/Referral.js:35-38 | Payouts are never negative, so reward processing keeps the model's edge invariant: a non-empty code and a non-negative total. The schema itself does not bound the total. |
| ReferralController.CountByTier | controllers/referralController.js:220-233 | For each tier, the count and the reward sum of the participant's active outgoing edges at that tier. |
| ReferralController.StatsBelowNext | controllers/referralController.js:227-234 | Extending the grouping by one tier keeps exactly the tiers that have active edges, in ascending order. |
| ReferralController.AggregateByTier | controllers/referralController.js:220-235 | One entry per tier that has an active outgoing edge, in ascending tier order, with that tier's count and summed rewards. No entry for an empty tier. |
| ReferralController.GetReferralStats | controllers/referralController.js:203-263 | Not-found for an unknown participant. Otherwise it fails exactly when an active tier-1 edge from the participant leads to someone with no record, because the direct-referral list reads that participant's name. On success it gives the code, the number of referrals and the referral earnings from the record, and the per-tier grouping. |
| ReferralController.ReceivedMembers | controllers/referralController.js:267-270 | The edges a participant receives are exactly the active edges into it. |
| ReferralController.TierBucketsPartition | controllers/referralController.js:267-273 | Splitting the received edges by tier neither loses nor invents an edge. |
| ReferralController.TierBucketsSum | controllers/referralController.js:286 | Splitting the received edges by tier keeps their reward sum. |
| ReferralController.GetUserReferralRewards | controllers/referralController.js:265-292 | Fails exactly when an active edge into the participant has a referrer with no record, because reading that referrer's name throws. Otherwise the rewards listed are a permutation of the active edges into the participant, sorted by tier. The total is the sum of their reward totals. |
| UserController.LiveShare | controllers/userController.js:186 | The live share is the floor of xp times the tier's percentage, negative gains included. |
| UserController.FirstEdge | controllers/userController.js:190-193 | The edge updated is the first one, in store order, from the ancestor to the earner, or none. |
| UserController.DistributeReferralXP | controllers/userController.js:176-204 | A participant with no record changes nothing. Participants and edges are neither added nor removed. |
| UserController.DistributeCreditsAncestors | controllers/userController.js:181-199 | Each participant's balance grows by its shares as a tier 1..3 ancestor on the live `referredBy` links, and nothing else in a record changes. At most three ancestors are credited. |
| UserController.DistributeBumpsEdges | controllers/userController.js:189-193 | Each ancestor's share is also added to the first edge from that ancestor to the earner, and no other edge changes. |
| UserController.LiveWalkCreditsLineage | controllers/userController.js:185-199 | The walk credits exactly the resolved part of the live lineage. Crediting balances never changes who comes next. |
| UserController.ClaimDailyXP | controllers/userController.js:113-148 | Refused with the time one day after the last claim exactly when the last claim was less than a day ago. Otherwise adds 100 xp, bumps the streak, records the claim time, and changes nothing else. |
| UserController.CheckDailyXPClaimable | controllers/userController.js:150-174 | Claimable exactly when a day has passed since a recorded claim. The next claim time is now when claimable, otherwise a day after the last claim, and invalid without a recorded claim. |
| UserController.CheckPredictsClaim | controllers/userController.js:125-130 | For a participant who has claimed before, the check says claimable exactly when the claim succeeds, and both give the same next time. |
| UserController.NeverClaimedDisagreement | controllers/userController.js:158-163 | With no recorded claim the claim succeeds, yet the check reports not claimable. |
| UserController.ClaimOncePerDay | controllers/userController.js:125-136 | After a claim, any claim less than a day later is refused with the time one day after it. |
| UserController.Boost | controllers/userController.js:246-288 | Refused exactly when no boost is left. Otherwise spends one boost, records the time, adds 100 taps, adds 100 × computePower to both xp and compute, clears the cooldown, and leaves the referral fields alone. |
| UserController.BoostsAreCounted | controllers/userController.js:253-262 | A participant with n boosts can boost exactly n times in a row. |
| UserController.UpgradeGPU | controllers/userController.js:323-342 | Not-found exactly for an unknown participant. Otherwise compute power grows by one and nothing else changes. |
| UserController.BoostGainGrowsWithUpgrade | controllers/userController.js:265-266 | After an upgrade, each boost credits 100 more xp than before. |
| UserController.UpdateProfile | controllers/userController.js:91-111 | Refused exactly when the body has a key outside username, avatarUrl, language and theme. Otherwise only those profile fields change. |
| UserController.UpdateProfileIdempotent | controllers/userController.js:93-102 | Sending the same body twice gives the same participant as sending it once. |
| UserController.UpdateProfileEmpty | controllers/userController.js:93-102 | An empty body is accepted and changes nothing. |
| RewardPaths.ShareIsReward | controllers/userController.js:186 | For a non-negative gain, the live share equals the reward the utility calculates for that tier. |
| RewardPaths.PathsAgreeAfterBinding | controllers/referralController.js:120-176 | Right after a binding, with no earlier edge into the applicant and a gain of at least zero, each participant gets the same xp from the live walk as from the persisted edges. |
| RewardPaths.LiveWalkLeavesEarnings | controllers/userController.js:185-199 | The live walk never changes anyone's `totalReferralXP`. |
| RewardPaths.PathsDivergeAfterLateBinding | controllers/userController.js:176-204 | When an ancestor binds after its referral, the live walk pays it a tier-2 share of 5 that the persisted edges do not pay. |
| RewardPaths.LiveWalkUnbalances | controllers/userController.js:190-193 | The live walk can leave edge totals and referral earnings out of agreement on a store where they agreed. |
| Findings.ApplyUnderSchema | models/Referral.js:12-23 | A binding commits exactly when the workflow accepts it and the resulting edges satisfy the unique indexes on `referred` and on `code`. A refusal by the workflow is passed through with its reason. A binding the workflow accepts but that breaks an index aborts with a duplicate key. |
| Findings.DeepChainNeverRecorded | controllers/referralController.js:120-131 | Every binding whose chain has two or more tiers is aborted by the `referred` index. |
| Findings.UsedCodeRefused | models/Referral.js:18-22 | On any store with unique participant codes that holds an edge with a code, every binding with that code, by anyone, is refused. Edges are only ever appended, so this holds for every later store. |
| Findings.CodeRecordedOnce | models/Referral.js:18-22 | A recorded binding keeps codes unique and leaves an edge with its code, so the store it leaves refuses every binding with the same code, by anyone at any time. |
| Findings.TwoTierBindingAborted | controllers/referralController.js:120-131 | Carol applying Bob's code, where Bob was referred by Alice: the workflow accepts it and the schema aborts it. |
| Findings.ApplyUnderTierIndex | models/Referral.js:53 | With one edge per referred participant and tier as the key, a committed binding is the workflow's own result and keeps that key unique. A refusal by the workflow is passed through, and a binding the workflow accepts that duplicates the key aborts with a duplicate key. |
| Findings.ApplyKeepsTierUnique | models/Referral.js:53 | Under that key a binding is never aborted, and it keeps the key unique, every edge led into a bound participant, and codes unique. |
| Findings.TwoTierBindingRecorded | models/Referral.js:53 | Carol's two-tier binding is recorded under the corrected key. |
| Findings.FourthAncestorCycle | controllers/referralController.js:14 | Uma, the third ancestor of Rita (Rita → Xena → Yuri → Uma), applies Rita's code. The walk examines only Rita, Xena and Yuri, so it misses her. The binding succeeds and Uma becomes her own fourth ancestor: a `referredBy` cycle. |
| Findings.ApplyReferralCodeAcyclic | controllers/referralController.js:14-22 | The self-referral check runs over the referrer's whole ancestry. A binding the source accepts is refused with self-referral exactly when the applicant is among those ancestors, and is otherwise the source's own result. After a successful binding the applicant is never among its own ancestors. |
| Findings.FourthAncestorCycleRefused | controllers/referralController.js:20-22 | The corrected application refuses Uma with self-referral. |

## Findings

| source | as written | input that shows it | evidently intended | confidence | as-written member | corrected member |
|---|---|---|---|---|---|---|
| models/Referral.js:16 and :21, against controllers/referralController.js:120-131 | `referred` and `code` are unique, but a binding writes one edge per tier, all into the same participant and with the same code. | Alice (0) referred Bob (1); Carol (2) applies Bob's code: two edges into Carol, both with Bob's code. | One edge per referred participant and tier, the existing non-unique `{referred, tier}` index. | not executed | Findings.DeepChainNeverRecorded | Findings.ApplyKeepsTierUnique |
| controllers/referralController.js:14 | The cycle check examines only three ids: the referrer and its two nearest ancestors. The referrer's third ancestor is the first one missed. | Uma (0) → Yuri (1) → Xena (2) → Rita (3) in referral order; Uma applies Rita's code "DDDD3333". | The self-referral check covers every ancestor of the referrer. | not executed | Findings.FourthAncestorCycle | Findings.ApplyReferralCodeAcyclic |

The corrected application succeeds only where the source's does, and with the same store.
Every property proved about `ReferralController.ApplyReferralCode`'s successes therefore
holds for it too.

Two further mismatches are modelled rather than corrected:

- **The two reward paths diverge.** `RewardPaths.PathsAgreeAfterBinding` shows they agree
  right after a binding. `RewardPaths.PathsDivergeAfterLateBinding` shows that they stop
  agreeing once an ancestor binds after its referrals. `RewardPaths.LiveWalkLeavesEarnings`
  and `RewardPaths.LiveWalkUnbalances` show that the live walk never updates
  `totalReferralXP`.
- **The active flag.** The handlers write and filter on `isActive`
  (controllers/referralController.js:127, :163, :214, :224, :269), but the edge schema has
  only `status` (models/Referral.js:24-28). Under Mongoose's strict mode the field written
  at :127 is dropped, so no stored edge has it.
  - The `find` filters at :163, :214 and :269 are cast as queries. With
    `strictQuery` on, the unknown path is removed and they match every edge. With it off,
    they match none.
  - The aggregation's `$match` at :224 is not cast, and `strictQuery` does not apply to
    it. It never matches a stored edge, so the source's `tierStats` is always empty.

  The model reads "active" as `status == active`, which is what the schema's default gives
  every new edge. Under that reading the filters keep the edges the handlers evidently
  mean.

## Left out

- Authentication, `tap`, `getProfile`, `getCooldownStatus` and `getDailyPoints`: these are
  Telegram signature checks, Redis caching, a job queue and response plumbing. `user.tap()`
  lives in models/User.js, which is not part of this model.
- HTTP status codes, response shapes, share links and logging are left out. The
  `directReferrals` list of `getReferralStats` is not built: it is a populated,
  date-sorted copy of the active tier-1 edges. Its one effect on the outcome is kept: the
  request fails when such an edge's referred participant has no record, because reading
  that participant's name throws.
- Randomness: `crypto.randomBytes` becomes a parameter, the five four-byte draws of one
  code generation.
- Time: `new Date()` becomes the integer millisecond parameter `now`. Dates are integer
  milliseconds, and a missing claim date is `None`, standing for JavaScript's invalid date.
- Floating point: `Math.floor(xp * 0.1)`, `* 0.05` and `* 0.025` are modelled as floor
  division by 10, 20 and 40. The doubles nearest 0.1, 0.05 and 0.025 lie above them by
  2^-54/10, 2^-55/10 and 2^-56/10. For integer xp with |xp| at most 2^50 this excess moves
  the product by less than half a unit in the last place, so the floor is the same.
- ReferralUtils.CalculateReferralReward: exact only for |xp| at most 2^50. Above that the
  double product can round up to the next integer: for xp = 9007199254736999 at tier 1 the
  source gives 900719925473700, the model 900719925473699.
- UserController.LiveShare: exact only for |xp| at most 2^50, for the same reason.
- ReferralController.AggregateByTier: groups the active edges by tier. Because the
  source's `$match` on `isActive` matches no stored edge, the source always returns an
  empty grouping.
- ReferralController.GetReferralStats: its `tierStats` is the model's grouping of the
  active edges, where the source's is always empty. The referral count and earnings are
  read from the participant's record, as in the source.
- ReferralController.ApplyReferralCode: its properties assume unique codes. In a store
  whose codes were not all assigned by `generateReferralCode`, the source's `findOne` by
  code would pick one of several holders, which the model does not represent.
- Identity: lookups by `telegramId` and by `_id` are both lookups by the model's `Id`.
- `findOne({ _id: undefined })` (controllers/userController.js:198) is taken to match
  nothing, so the live walk stops at a participant without a referrer.
- Concurrency: transactions are all-or-nothing, and the handlers run one at a time. The
  model applies the saves of `processReferralReward`'s `Promise.all` in sequence. What the
  source does when two edges into one earner share a referrer is not modelled. The edges of
  one binding never share a referrer (`ReferralChain.ChainDistinct`), and a participant
  binds at most once (`ReferralController.ReapplyRejected`).
- The background `distributeReferralXP` call of `tap`, and its swallowed errors, are not
  modelled. The function itself is.
- ReferralUtils.CalculateReferralReward: `level` is an integer, so the `typeof` checks and
  the `|| 0` for a non-integer level inside 1..3 are not modelled.
- UserController.UpdateProfile: profile values are strings. Type checks of the schema on
  save are not modelled.
- ReferralController.GenerateReferralCode: only newly generated codes are proved well
  formed. An existing code is returned as stored.
- UserController.DistributeReferralXP: its own contract states only the frame. What each
  participant and each edge receive is stated by `UserController.DistributeCreditsAncestors`
  and `UserController.DistributeBumpsEdges`.
- The `timestamps` fields and the two non-unique query indexes of the edge schema
  (models/Referral.js:47, :51-52) have no behaviour to model.

=== FILE: findings.dfy ===
/** Two places where applyReferralCode (controllers/referralController.js) and the edge
    schema (models/Referral.js) do not do what they evidently mean to, each as written and
    corrected. */
module Findings {
  import opened Wrappers
  import opened Ledger
  import opened ReferralUtils
  import opened ReferralChain
  import opened ReferralController
  import opened RewardPaths

  // ---------------------------------------------------------------------------
  // The unique indexes on `referred` and `code`

  /** A transaction aborted by the workflow's own checks, or by a duplicate key. */
  datatype TxError = Refused(ReferralError) | DuplicateKey

  /** applyReferralCode inside its transaction, against the schema's unique indexes on
      `referred` and `code`: a save that duplicates either aborts the whole transaction and
      the store is left as it was. */
  function ApplyUnderSchema(s: Store, applicant: Id, code: Option<string>, now: int): (r: Result<Store, TxError>)
    requires CodesUnique(s.users)
    ensures r.Success? <==>
      ApplyReferralCode(s, applicant, code, now).Success? && SchemaUnique(ApplyReferralCode(s, applicant, code, now).value.edges)
    ensures r.Success? ==> r.value == ApplyReferralCode(s, applicant, code, now).value && SchemaUnique(r.value.edges)
    ensures ApplyReferralCode(s, applicant, code, now).Failure? ==>
      r == Failure(Refused(ApplyReferralCode(s, applicant, code, now).error))
    ensures ApplyReferralCode(s, applicant, code, now).Success? && !SchemaUnique(ApplyReferralCode(s, applicant, code, now).value.edges) ==>
      r == Failure(DuplicateKey)
  {
    match ApplyReferralCode(s, applicant, code, now)
    case Failure(e) => Failure(Refused(e))
    case Success(s1) => if SchemaUnique(s1.edges) then Success(s1) else Failure(DuplicateKey)
  }

  /** Every tier of a chain is written as an edge into the same applicant, so a binding
      whose chain has two tiers or more duplicates `referred` and is always aborted. */
  lemma DeepChainNeverRecorded(s: Store, applicant: Id, code: Option<string>, now: int)
    requires CodesUnique(s.users)
    requires ApplyReferralCode(s, applicant, code, now).Success?
    requires |ApplyReferralCode(s, applicant, code, now).value.users[applicant].referralChain| >= 2
    ensures ApplyUnderSchema(s, applicant, code, now) == Failure(DuplicateKey)
  {
    var s1 := ApplyReferralCode(s, applicant, code, now).value;
    var n := |s.edges|;
    assert s1.edges[n].referred == applicant && s1.edges[n + 1].referred == applicant;
  }

  /** Every binding writes at least one edge carrying its code, so on any store that
      already holds an edge with a code, no binding with that code is ever recorded. */
  lemma UsedCodeRefused(s: Store, b: Id, code: Option<string>, t: int)
    requires CodesUnique(s.users)
    requires code.Some? && exists i :: 0 <= i < |s.edges| && s.edges[i].code == code.value
    ensures ApplyUnderSchema(s, b, code, t).Failure?
  {
    if ApplyReferralCode(s, b, code, t).Success? {
      var s1 := ApplyReferralCode(s, b, code, t).value;
      var i :| 0 <= i < |s.edges| && s.edges[i].code == code.value;
      var n := |s.edges|;
      assert s1.edges[..n] == s.edges;
      assert s1.edges[i] == s.edges[..n][i];
      assert s1.edges[n].code == code.value;
      assert !UniqueCode(s1.edges);
    }
  }

  /** A recorded binding leaves an edge with its code behind, so from then on every
      binding with the same code, by anyone at any time, is aborted. */
  lemma CodeRecordedOnce(s: Store, a: Id, code: Option<string>, now: int)
    requires CodesUnique(s.users)
    requires ApplyUnderSchema(s, a, code, now).Success?
    ensures var s1 := ApplyUnderSchema(s, a, code, now).value;
      && CodesUnique(s1.users)
      && (exists i :: 0 <= i < |s1.edges| && s1.edges[i].code == code.value)
      && forall b, later :: ApplyUnderSchema(s1, b, code, later).Failure?
  {
    var s1 := ApplyReferralCode(s, a, code, now).value;
    ReapplyRejected(s, a, code, now, code, now);
    var n := |s.edges|;
    assert s1.edges[n].code == code.value;
    forall b, later ensures ApplyUnderSchema(s1, b, code, later).Failure? {
      UsedCodeRefused(s1, b, code, later);
    }
  }

  /** Carol (2) applies Bob's (1) code; Bob was referred by Alice (0), so the chain has two
      tiers. */
  function TwoTiers(): Store {
    Store(map[0 := Plain(None, AliceCode), 1 := Plain(Some(0), BobCode), 2 := Plain(None, "CCCC0003")], [])
  }

  lemma TwoTiersCodes()
    ensures CodesUnique(TwoTiers().users)
  {
    var u := TwoTiers().users;
    assert u.Keys == {0, 1, 2};
    assert u[0].referralCode != u[1].referralCode;
    assert u[0].referralCode != u[2].referralCode;
    assert u[1].referralCode != u[2].referralCode;
  }

  lemma BobCodeValid()
    ensures ValidateReferralCode(Some(BobCode))
  {
    ValidateReferralCodeIff(BobCode);
  }

  lemma TwoTiersOwner()
    ensures CodesUnique(TwoTiers().users)
    ensures ValidateReferralCode(Some(BobCode))
    ensures CodeOwner(TwoTiers().users, BobCode) == Some(1)
  {
    var u := TwoTiers().users;
    TwoTiersCodes();
    BobCodeValid();
    assert u[1].referralCode == Some(BobCode);
  }

  lemma TwoTiersStoreFacts()
    ensures CodesUnique(TwoTiers().users)
    ensures ValidateReferralCode(Some(BobCode))
    ensures CodeOwner(TwoTiers().users, BobCode) == Some(1)
    ensures Lineage(TwoTiers().users, Some(1), MaxTier) == [1, 0]
  {
    var u := TwoTiers().users;
    TwoTiersOwner();
    assert Lineage(u, Some(0), 1) == [0];
  }

  /** The smallest input that shows it: Carol's binding to Bob is refused by the index. */
  lemma TwoTierBindingAborted()
    ensures ApplyReferralCode(TwoTiers(), 2, Some(BobCode), 0).Success?
    ensures ApplyUnderSchema(TwoTiers(), 2, Some(BobCode), 0) == Failure(DuplicateKey)
  {
    var s := TwoTiers();
    TwoTiersStoreFacts();
    ChainRejection(s.users, 1, 2, MaxTier);
    assert Distinct([1, 0]);
    AncestorsOfLinks([1, 0]);
    DeepChainNeverRecorded(s, 2, Some(BobCode), 0);
  }

  /** The evidently intended key: one edge per referred participant and tier, as the
      compound index on (referred, tier) suggests. */
  predicate TierUnique(edges: seq<Edge>) {
    forall i, j :: 0 <= i < j < |edges| ==> !(edges[i].referred == edges[j].referred && edges[i].tier == edges[j].tier)
  }

  /** Every edge leads into a participant who has bound to a referrer. */
  predicate BindingConsistent(s: Store) {
    forall i :: 0 <= i < |s.edges| ==> s.edges[i].referred in s.users && s.users[s.edges[i].referred].referredBy.Some?
  }

  /** applyReferralCode in its transaction against the corrected key. */
  function ApplyUnderTierIndex(s: Store, applicant: Id, code: Option<string>, now: int): (r: Result<Store, TxError>)
    requires CodesUnique(s.users)
    ensures r.Success? ==>
      ApplyReferralCode(s, applicant, code, now).Success? && r.value == ApplyReferralCode(s, applicant, code, now).value
      && TierUnique(r.value.edges)
    ensures ApplyReferralCode(s, applicant, code, now).Failure? ==>
      r == Failure(Refused(ApplyReferralCode(s, applicant, code, now).error))
    ensures ApplyReferralCode(s, applicant, code, now).Success? && !TierUnique(ApplyReferralCode(s, applicant, code, now).value.edges) ==>
      r == Failure(DuplicateKey)
  {
    match ApplyReferralCode(s, applicant, code, now)
    case Failure(e) => Failure(Refused(e))
    case Success(s1) => if TierUnique(s1.edges) then Success(s1) else Failure(DuplicateKey)
  }

  /** Under the corrected key a binding is never aborted: on a store where every edge leads
      into a bound participant, the new edges go into an unbound applicant at distinct
      tiers, and the store stays consistent. */
  lemma ApplyKeepsTierUnique(s: Store, applicant: Id, code: Option<string>, now: int)
    requires CodesUnique(s.users) && TierUnique(s.edges) && BindingConsistent(s)
    requires ApplyReferralCode(s, applicant, code, now).Success?
    ensures var s1 := ApplyReferralCode(s, applicant, code, now).value;
      && TierUnique(s1.edges) && BindingConsistent(s1) && CodesUnique(s1.users)
      && ApplyUnderTierIndex(s, applicant, code, now) == Success(s1)
  {
    var s1 := ApplyReferralCode(s, applicant, code, now).value;
    var n := |s.edges|;
    var es := s1.edges[n..];
    ReapplyRejected(s, applicant, code, now, code, now);
    assert s1.edges == s.edges + es by {
      assert s1.edges[..n] == s.edges;
    }
    forall j | 0 <= j < |es| ensures es[j].referred == applicant && es[j].tier == j + 1 {
      assert es[j] == s1.edges[n + j];
    }
    assert s1.users[applicant].referredBy.Some?;
    AppendTierUnique(s, s1, applicant, es);
  }

  /** Edges into a participant who had no referrer, at tiers 1, 2, …, extend a consistent
      store without repeating a (referred, tier) pair. */
  lemma AppendTierUnique(s: Store, s1: Store, applicant: Id, es: seq<Edge>)
    requires TierUnique(s.edges) && BindingConsistent(s)
    requires applicant in s.users && s.users[applicant].referredBy.None?
    requires s1.edges == s.edges + es && s1.users.Keys == s.users.Keys
    requires forall v :: v in s.users && v != applicant ==> s1.users[v].referredBy == s.users[v].referredBy
    requires s1.users[applicant].referredBy.Some?
    requires forall j :: 0 <= j < |es| ==> es[j].referred == applicant && es[j].tier == j + 1
    ensures TierUnique(s1.edges) && BindingConsistent(s1)
  {
    var n := |s.edges|;
    forall i | 0 <= i < |s1.edges|
      ensures s1.edges[i].referred in s1.users && s1.users[s1.edges[i].referred].referredBy.Some?
    {
      if i < n {
        assert s1.edges[i] == s.edges[i];
      } else {
        assert s1.edges[i] == es[i - n];
      }
    }
    forall i, j | 0 <= i < j < |s1.edges|
      ensures !(s1.edges[i].referred == s1.edges[j].referred && s1.edges[i].tier == s1.edges[j].tier)
    {
      if j < n {
        assert s1.edges[i] == s.edges[i] && s1.edges[j] == s.edges[j];
      } else if i < n {
        assert s1.edges[i] == s.edges[i] && s1.edges[j] == es[j - n];
      } else {
        assert s1.edges[i] == es[i - n] && s1.edges[j] == es[j - n];
      }
    }
  }

  /** The two-tier binding the schema refuses is recorded under the corrected key. */
  lemma TwoTierBindingRecorded()
    ensures ApplyUnderTierIndex(TwoTiers(), 2, Some(BobCode), 0).Success?
  {
    TwoTierBindingAborted();
    TwoTiersStoreFacts();
    ApplyKeepsTierUnique(TwoTiers(), 2, Some(BobCode), 0);
  }

  // ---------------------------------------------------------------------------
  // Cycles longer than the walk

  /** Uma (0) referred Yuri (1), who referred Xena (2), who referred Rita (3). */
  function FourDeep(): Store {
    Store(map[0 := Plain(None, "AAAA0000"), 1 := Plain(Some(0), "BBBB1111"),
              2 := Plain(Some(1), "CCCC2222"), 3 := Plain(Some(2), "DDDD3333")], [])
  }

  lemma FourDeepCodes()
    ensures CodesUnique(FourDeep().users)
  {
    var u := FourDeep().users;
    assert u.Keys == {0, 1, 2, 3};
    assert u[0].referralCode != u[1].referralCode && u[0].referralCode != u[2].referralCode;
    assert u[0].referralCode != u[3].referralCode && u[1].referralCode != u[2].referralCode;
    assert u[1].referralCode != u[3].referralCode && u[2].referralCode != u[3].referralCode;
  }

  lemma FourDeepOwner()
    ensures CodesUnique(FourDeep().users)
    ensures ValidateReferralCode(Some("DDDD3333"))
    ensures CodeOwner(FourDeep().users, "DDDD3333") == Some(3)
  {
    var u := FourDeep().users;
    FourDeepCodes();
    RitaCodeValid();
    assert u[3].referralCode == Some("DDDD3333");
  }

  lemma RitaCodeValid()
    ensures ValidateReferralCode(Some("DDDD3333"))
  {
    ValidateReferralCodeIff("DDDD3333");
  }

  lemma FourDeepStoreFacts()
    ensures CodesUnique(FourDeep().users)
    ensures ValidateReferralCode(Some("DDDD3333"))
    ensures CodeOwner(FourDeep().users, "DDDD3333") == Some(3)
    ensures Lineage(FourDeep().users, Some(3), MaxTier) == [3, 2, 1]
    ensures Lineage(FourDeep().users, Some(3), 4) == [3, 2, 1, 0]
  {
    var u := FourDeep().users;
    FourDeepOwner();
    assert Lineage(u, Some(0), 1) == [0];
    assert Lineage(u, Some(1), 1) == [1];
  }

  /** Uma, Rita's third ancestor, applies Rita's code. The walk examines Rita, Xena and
      Yuri only, misses Uma, and the binding closes the cycle Uma, Rita, Xena, Yuri, Uma:
      Uma becomes her own fourth ancestor. */
  lemma FourthAncestorCycle()
    ensures ApplyReferralCode(FourDeep(), 0, Some("DDDD3333"), 0).Success?
    ensures var s1 := ApplyReferralCode(FourDeep(), 0, Some("DDDD3333"), 0).value;
      && s1.users[0].referredBy == Some(3)
      && Lineage(s1.users, Some(3), 4) == [3, 2, 1, 0]
  {
    var s := FourDeep();
    FourDeepStoreFacts();
    ChainRejection(s.users, 3, 0, MaxTier);
    assert Distinct([3, 2, 1]);
    var s1 := ApplyReferralCode(s, 0, Some("DDDD3333"), 0).value;
    CycleLineage(s1.users);
  }

  /** Rita, Xena, Yuri and Uma each referred by the next, Uma by Rita. */
  lemma CycleLineage(users: map<Id, User>)
    requires 0 in users && 1 in users && 2 in users && 3 in users
    requires users[3].referredBy == Some(2) && users[2].referredBy == Some(1)
    requires users[1].referredBy == Some(0) && users[0].referredBy == Some(3)
    ensures Lineage(users, Some(3), 4) == [3, 2, 1, 0]
  {
    assert Lineage(users, Some(0), 1) == [0];
    assert Lineage(users, Some(1), 2) == [1, 0];
  }

  /** The corrected application: the self-referral test covers every ancestor of the
      referrer, not only the three the chain records. With `n` participants a lineage of
      `n` ids reaches every ancestor there is. */
  function ApplyReferralCodeAcyclic(s: Store, applicant: Id, code: Option<string>, now: int): (r: Result<Store, ReferralError>)
    requires CodesUnique(s.users)
    ensures r.Success? ==> r == ApplyReferralCode(s, applicant, code, now)
    ensures ApplyReferralCode(s, applicant, code, now).Failure? ==> r == ApplyReferralCode(s, applicant, code, now)
    ensures ApplyReferralCode(s, applicant, code, now).Success? ==>
      var referrer := CodeOwner(s.users, code.value).value;
      (r.Failure? <==> applicant in Lineage(s.users, Some(referrer), |s.users|))
      && (r.Failure? ==> r.error == SelfReferralDetected)
    ensures r.Success? ==>
      && applicant in r.value.users
      && applicant !in Lineage(r.value.users, r.value.users[applicant].referredBy, |s.users|)
  {
    match ApplyReferralCode(s, applicant, code, now)
    case Failure(e) => Failure(e)
    case Success(s1) =>
      var referrer := CodeOwner(s.users, code.value).value;
      if applicant in Lineage(s.users, Some(referrer), |s.users|) then Failure(SelfReferralDetected)
      else
        LineageAvoiding(s.users, s1.users, applicant, Some(referrer), |s.users|);
        Success(s1)
  }

  /** The corrected application refuses Uma. */
  lemma FourDeepSize()
    ensures |FourDeep().users| == 4
  {
    assert FourDeep().users.Keys == {0, 1, 2, 3};
  }

  lemma FourthAncestorCycleRefused()
    ensures ApplyReferralCodeAcyclic(FourDeep(), 0, Some("DDDD3333"), 0) == Failure(SelfReferralDetected)
  {
    var s := FourDeep();
    FourthAncestorCycle();
    FourDeepStoreFacts();
    FourDeepSize();
    assert 0 in Lineage(s.users, Some(3), |s.users|);
  }
}

=== FILE: ledger.dfy ===
/** The persisted records: the referral edge of models/Referral.js, the participant
    fields the controllers read and write, and the store that holds both. */
module Ledger {
  import opened Wrappers

  type Id = nat

  /** The schema's `status` enumeration. */
  datatype Status = Pending | Active | Expired

  /** The schema bounds `tier` to [1, 3]; a record outside them is never saved. */
  type Tier = t: int | 1 <= t <= 3 witness 1

  /** One referrer -> referred relation at a tier. `referrer` and `referred` are required
      references; `lastRewardDate` is optional. Dates are integer milliseconds. */
  datatype Edge = Edge(
    referrer: Id,
    referred: Id,
    code: string,
    status: Status,
    tier: Tier,
    totalRewardsDistributed: int,
    dateReferred: int,
    lastRewardDate: Option<int>)

  /** The free-form profile fields a participant may edit. */
  datatype Profile = Profile(username: string, avatarUrl: string, language: string, theme: string)

  /** A participant, restricted to the fields the controllers use. */
  datatype User = User(
    referralCode: Option<string>,
    referredBy: Option<Id>,
    referralChain: seq<Id>,
    referrals: seq<Id>,
    xp: int,
    totalReferralXP: int,
    lastDailyClaimDate: Option<int>,
    checkInStreak: int,
    boostCount: int,
    lastBoostTime: Option<int>,
    totalTaps: int,
    computePower: int,
    compute: int,
    cooldownEndTime: Option<int>,
    profile: Profile)

  datatype Store = Store(users: map<Id, User>, edges: seq<Edge>)

  /** The edge the application workflow writes: status and the reward total take the
      schema defaults, active and 0, and no reward date is set yet. */
  function NewEdge(referrer: Id, referred: Id, code: string, tier: Tier, now: int): Edge {
    Edge(referrer, referred, code, Active, tier, 0, now, None)
  }

  /** The controllers filter on an `isActive` flag the schema does not declare; the
      model reads "active" as the schema's status. */
  predicate IsActive(e: Edge) {
    e.status == Active
  }

  /** The edge invariant the model keeps: `code` is a required string, so the empty string
      fails validation on save (a schema constraint), and the reward total never goes below
      its default of 0 (a model invariant; the schema itself does not bound it). */
  predicate ValidEdge(e: Edge) {
    e.code != [] && e.totalRewardsDistributed >= 0
  }

  predicate AllValid(edges: seq<Edge>) {
    forall i :: 0 <= i < |edges| ==> ValidEdge(edges[i])
  }

  /** The unique index on `referred`. */
  predicate UniqueReferred(edges: seq<Edge>) {
    forall i, j :: 0 <= i < j < |edges| ==> edges[i].referred != edges[j].referred
  }

  /** The unique index on `code`. */
  predicate UniqueCode(edges: seq<Edge>) {
    forall i, j :: 0 <= i < j < |edges| ==> edges[i].code != edges[j].code
  }

  /** Both unique indexes the schema declares. */
  predicate SchemaUnique(edges: seq<Edge>) {
    UniqueReferred(edges) && UniqueCode(edges)
  }

  /** JavaScript truthiness of `user.referralCode`: set and not the empty string. */
  predicate HasCode(u: User) {
    u.referralCode.Some? && u.referralCode.value != []
  }

  /** Whether `findOne({ referralCode: code })` finds someone. */
  predicate CodeTaken(users: map<Id, User>, code: string) {
    exists id :: id in users && users[id].referralCode == Some(code)
  }

  /** No two participants hold the same code. Codes assigned by generateReferralCode keep
      this (the free-code loop of controllers/referralController.js:59-66); the lookup by
      code relies on it to name one referrer. */
  predicate CodesUnique(users: map<Id, User>) {
    forall a, b :: a in users && b in users && a != b && HasCode(users[a]) ==>
      users[a].referralCode != users[b].referralCode
  }
}

=== FILE: referral_chain.dfy ===
/** The bounded ancestry walk of validateAndGetReferralChain
    (controllers/referralController.js). */
module ReferralChain {
  import opened Wrappers
  import opened Ledger

  /** One chain entry: an ancestor and its distance from the applicant. */
  datatype Link = Link(ancestor: Id, tier: nat)

  datatype ChainError = CircularChain | SelfReferral

  /** The ids the walk examines, in order: it starts at `start` and follows `referredBy`
      for at most `k` ids. An id that does not resolve is still examined, and ends it. */
  function Lineage(users: map<Id, User>, start: Option<Id>, k: nat): (v: seq<Id>)
    ensures |v| <= k
    ensures v != [] ==> start == Some(v[0])
    decreases k
  {
    if k == 0 || start.None? then []
    else if start.value !in users then [start.value]
    else [start.value] + Lineage(users, users[start.value].referredBy, k - 1)
  }

  /** The examined ids that resolved to a participant: all but an unresolved last one. */
  function Resolved(users: map<Id, User>, v: seq<Id>): seq<Id> {
    if v != [] && v[|v| - 1] !in users then v[..|v| - 1] else v
  }

  function Links(ids: seq<Id>): (c: seq<Link>)
    ensures |c| == |ids|
  {
    seq(|ids|, i requires 0 <= i < |ids| => Link(ids[i], i + 1))
  }

  function Ancestors(c: seq<Link>): (ids: seq<Id>)
    ensures |ids| == |c|
  {
    seq(|c|, i requires 0 <= i < |c| => c[i].ancestor)
  }

  /** What the walk concludes at the i-th examined id: a repeat of an id already seen
      is a cycle, and otherwise meeting the applicant is a self-referral. */
  function FaultAt(v: seq<Id>, applicant: Id, i: nat): Option<ChainError>
    requires i < |v|
  {
    if v[i] in v[..i] then Some(CircularChain)
    else if v[i] == applicant then Some(SelfReferral)
    else None
  }

  /** The first fault at or after position i. */
  function Scan(v: seq<Id>, applicant: Id, i: nat): Option<ChainError>
    requires i <= |v|
    decreases |v| - i
  {
    if i == |v| then None
    else if FaultAt(v, applicant, i).Some? then FaultAt(v, applicant, i)
    else Scan(v, applicant, i + 1)
  }

  /** The reference definition of the chain: examine the lineage of the referrer up to
      `maxTier` ids; the first fault rejects, otherwise every resolved id becomes an
      entry, tier 1 first. */
  function ChainOf(users: map<Id, User>, referrerId: Id, applicant: Id, maxTier: nat)
    : (r: Result<seq<Link>, ChainError>)
    ensures r.Success? ==> |r.value| <= maxTier
    ensures r.Success? ==> forall i :: 0 <= i < |r.value| ==> r.value[i].tier == i + 1
  {
    var v := Lineage(users, Some(referrerId), maxTier);
    match Scan(v, applicant, 0)
    case Some(e) => Failure(e)
    case None => Success(Links(Resolved(users, v)))
  }

  /** One step of the walk past a resolved, unseen, non-applicant id. */
  lemma WalkPast(users: map<Id, User>, v: seq<Id>, n: nat, current: Option<Id>, k: nat, applicant: Id)
    requires n <= |v| && v[n..] == Lineage(users, current, k)
    requires current.Some? && k > 0 && current.value in users
    requires current.value !in v[..n] && current.value != applicant
    ensures n < |v| && v[n] == current.value
    ensures v[n + 1..] == Lineage(users, users[current.value].referredBy, k - 1)
    ensures Scan(v, applicant, n) == Scan(v, applicant, n + 1)
  {
    assert v[n..][1..] == v[n + 1..];
  }

  /** The id the walk is at is the next element of the lineage; when it does not
      resolve it is the last one. */
  lemma WalkAt(users: map<Id, User>, v: seq<Id>, n: nat, current: Option<Id>, k: nat)
    requires n <= |v| && v[n..] == Lineage(users, current, k)
    requires current.Some? && k > 0
    ensures n < |v| && v[n] == current.value
    ensures current.value !in users ==> |v| == n + 1
  {
    assert v[n..][0] == v[n];
  }

  /** The loop state after `tier - 1` resolved ids of the lineage `v`: the chain links them
      with their tiers, `visited` holds exactly them, `current` is where the rest of the
      lineage starts, and none of them was a fault. */
  ghost predicate WalkState(users: map<Id, User>, v: seq<Id>, userId: Id, maxTier: nat,
                            chain: seq<Link>, current: Option<Id>, tier: nat, visited: set<Id>)
  {
    && 1 <= tier <= maxTier + 1
    && tier - 1 <= |v|
    && |chain| == tier - 1
    && (forall j :: 0 <= j < tier - 1 ==> chain[j] == Link(v[j], j + 1))
    && v[tier - 1..] == Lineage(users, current, maxTier - (tier - 1))
    && (forall x :: x in visited <==> x in v[..tier - 1])
    && (forall j :: 0 <= j < tier - 1 ==> v[j] in users)
    && Scan(v, userId, 0) == Scan(v, userId, tier - 1)
  }

  lemma WalkStart(users: map<Id, User>, referrerId: Id, userId: Id, maxTier: nat)
    ensures WalkState(users, Lineage(users, Some(referrerId), maxTier), userId, maxTier, [], Some(referrerId), 1, {})
  {
  }

  /** An id already visited, or the applicant itself, ends the walk with the fault the
      reference scan finds. */
  lemma WalkFault(users: map<Id, User>, referrerId: Id, v: seq<Id>, userId: Id, maxTier: nat,
                  chain: seq<Link>, current: Option<Id>, tier: nat, visited: set<Id>)
    requires v == Lineage(users, Some(referrerId), maxTier)
    requires WalkState(users, v, userId, maxTier, chain, current, tier, visited)
    requires current.Some? && tier <= maxTier
    ensures current.value in visited ==> ChainOf(users, referrerId, userId, maxTier) == Failure(CircularChain)
    ensures current.value !in visited && current.value == userId ==>
      ChainOf(users, referrerId, userId, maxTier) == Failure(SelfReferral)
  {
    WalkAt(users, v, tier - 1, current, maxTier - (tier - 1));
    if current.value in visited {
      assert FaultAt(v, userId, tier - 1) == Some(CircularChain);
    } else if current.value == userId {
      assert FaultAt(v, userId, tier - 1) == Some(SelfReferral);
    }
  }

  /** Past a resolved, unseen, non-applicant id the loop state advances by one tier. */
  lemma WalkStep(users: map<Id, User>, v: seq<Id>, userId: Id, maxTier: nat,
                 chain: seq<Link>, current: Option<Id>, tier: nat, visited: set<Id>)
    requires WalkState(users, v, userId, maxTier, chain, current, tier, visited)
    requires current.Some? && tier <= maxTier
    requires current.value !in visited && current.value != userId && current.value in users
    ensures WalkState(users, v, userId, maxTier, chain + [Link(current.value, tier)],
                      users[current.value].referredBy, tier + 1, visited + {current.value})
  {
    WalkPast(users, v, tier - 1, current, maxTier - (tier - 1), userId);
    assert v[..tier] == v[..tier - 1] + [current.value];
  }

  /** When the walk stops without a fault, the chain is the resolved lineage. */
  lemma WalkDone(users: map<Id, User>, referrerId: Id, v: seq<Id>, userId: Id, maxTier: nat,
                 chain: seq<Link>, current: Option<Id>, tier: nat, visited: set<Id>)
    requires v == Lineage(users, Some(referrerId), maxTier)
    requires WalkState(users, v, userId, maxTier, chain, current, tier, visited)
    requires current.None? || tier > maxTier
      || (current.value !in visited && current.value != userId && current.value !in users)
    ensures ChainOf(users, referrerId, userId, maxTier) == Success(chain)
  {
    if current.Some? && tier <= maxTier {
      WalkAt(users, v, tier - 1, current, maxTier - (tier - 1));
      assert FaultAt(v, userId, tier - 1) == None;
      assert Scan(v, userId, tier - 1) == Scan(v, userId, tier);
    } else {
      assert |v[tier - 1..]| == 0;
    }
    assert Scan(v, userId, 0) == None;
    var ids := Resolved(users, v);
    assert ids == v[..tier - 1];
    assert chain == Links(ids);
  }

  /** validateAndGetReferralChain, as the loop the source runs with its visited set. */
  method ValidateAndGetReferralChain(users: map<Id, User>, referrerId: Id, userId: Id, maxTier: nat)
    returns (r: Result<seq<Link>, ChainError>)
    ensures r == ChainOf(users, referrerId, userId, maxTier)
  {
    ghost var v := Lineage(users, Some(referrerId), maxTier);
    var chain: seq<Link> := [];
    var current: Option<Id> := Some(referrerId);
    var tier: nat := 1;
    var visited: set<Id> := {};
    WalkStart(users, referrerId, userId, maxTier);
    while current.Some? && tier <= maxTier
      invariant WalkState(users, v, userId, maxTier, chain, current, tier, visited)
      decreases maxTier + 1 - tier
    {
      var id := current.value;
      WalkFault(users, referrerId, v, userId, maxTier, chain, current, tier, visited);
      if id in visited {
        return Failure(CircularChain);
      }
      if id == userId {
        return Failure(SelfReferral);
      }
      if id !in users {
        break;
      }
      WalkStep(users, v, userId, maxTier, chain, current, tier, visited);
      visited := visited + {id};
      chain := chain + [Link(id, tier)];
      current := users[id].referredBy;
      tier := tier + 1;
    }
    WalkDone(users, referrerId, v, userId, maxTier, chain, current, tier, visited);
    return Success(chain);
  }

  // ---------------------------------------------------------------------------
  // Properties of the chain

  predicate Distinct(v: seq<Id>) {
    forall i, j :: 0 <= i < j < |v| ==> v[i] != v[j]
  }

  /** Each examined id but the last resolves and names the next as its referrer; a
      lineage shorter than its bound ends at an unresolved id or one with no referrer. */
  lemma {:induction false} LineageLinked(users: map<Id, User>, start: Option<Id>, k: nat)
    ensures var v := Lineage(users, start, k);
      && (forall i :: 0 <= i < |v| - 1 ==> v[i] in users && users[v[i]].referredBy == Some(v[i + 1]))
      && (|v| < k && v != [] && v[|v| - 1] in users ==> users[v[|v| - 1]].referredBy.None?)
      && (k > 0 && start.Some? ==> v != [])
    decreases k
  {
    if k > 0 && start.Some? && start.value in users {
      var next := users[start.value].referredBy;
      LineageLinked(users, next, k - 1);
      var v := Lineage(users, start, k);
      var w := Lineage(users, next, k - 1);
      assert v == [start.value] + w;
      assert forall i :: 1 <= i < |v| ==> v[i] == w[i - 1];
    }
  }

  /** The chain starts at the referrer, each entry is referred by the next, and it stops
      early only where the ancestry ends (an unresolved id or no referrer). */
  lemma ChainLinkage(users: map<Id, User>, referrerId: Id, applicant: Id, maxTier: nat)
    requires ChainOf(users, referrerId, applicant, maxTier).Success?
    ensures var c := ChainOf(users, referrerId, applicant, maxTier).value;
      && (maxTier > 0 && referrerId in users ==> c != [] && c[0].ancestor == referrerId)
      && (referrerId !in users ==> c == [])
      && (forall i :: 0 <= i < |c| ==> c[i].ancestor in users)
      && (forall i :: 0 <= i < |c| - 1 ==> users[c[i].ancestor].referredBy == Some(c[i + 1].ancestor))
      && (0 < |c| < maxTier ==>
            var last := users[c[|c| - 1].ancestor];
            last.referredBy.None? || last.referredBy.value !in users)
  {
    var v := Lineage(users, Some(referrerId), maxTier);
    LineageLinked(users, Some(referrerId), maxTier);
    var c := ChainOf(users, referrerId, applicant, maxTier).value;
    var ids := Resolved(users, v);
    assert c == Links(ids);
    if v != [] && v[|v| - 1] !in users && |ids| > 0 {
      var last := ids[|ids| - 1];
      assert users[last].referredBy == Some(v[|v| - 1]);
    }
  }

  lemma {:induction false} ScanFindsFault(v: seq<Id>, applicant: Id, i: nat)
    requires i <= |v|
    ensures Scan(v, applicant, i).None? <==> forall j :: i <= j < |v| ==> FaultAt(v, applicant, j).None?
    ensures Scan(v, applicant, i).Some? ==>
      exists j :: i <= j < |v| && FaultAt(v, applicant, j) == Scan(v, applicant, i)
    decreases |v| - i
  {
    if i < |v| {
      ScanFindsFault(v, applicant, i + 1);
    }
  }

  /** The walk succeeds exactly when the examined ids are pairwise distinct and none is
      the applicant; a cycle is reported only for a repeat, a self-referral only when the
      applicant is met. */
  lemma ChainRejection(users: map<Id, User>, referrerId: Id, applicant: Id, maxTier: nat)
    ensures var v := Lineage(users, Some(referrerId), maxTier);
      var r := ChainOf(users, referrerId, applicant, maxTier);
      && (r.Success? <==> Distinct(v) && applicant !in v)
      && (r == Failure(CircularChain) ==> !Distinct(v))
      && (r == Failure(SelfReferral) ==> applicant in v)
  {
    var v := Lineage(users, Some(referrerId), maxTier);
    ScanFindsFault(v, applicant, 0);
    if Distinct(v) && applicant !in v {
      forall j | 0 <= j < |v| ensures FaultAt(v, applicant, j).None? {
        assert v[j] !in v[..j];
      }
    }
    if !Distinct(v) {
      var i, j :| 0 <= i < j < |v| && v[i] == v[j];
      assert v[j] in v[..j];
      assert FaultAt(v, applicant, j).Some?;
    }
    if applicant in v {
      var j :| 0 <= j < |v| && v[j] == applicant;
      assert FaultAt(v, applicant, j).Some?;
    }
  }

  /** On success the chain's ancestors are pairwise distinct and none is the applicant. */
  lemma ChainDistinct(users: map<Id, User>, referrerId: Id, applicant: Id, maxTier: nat)
    requires ChainOf(users, referrerId, applicant, maxTier).Success?
    ensures var ids := Ancestors(ChainOf(users, referrerId, applicant, maxTier).value);
      Distinct(ids) && applicant !in ids
  {
    ChainRejection(users, referrerId, applicant, maxTier);
    var v := Lineage(users, Some(referrerId), maxTier);
    var ids := Ancestors(ChainOf(users, referrerId, applicant, maxTier).value);
    assert ids == Resolved(users, v);
    assert forall i :: 0 <= i < |ids| ==> ids[i] == v[i];
  }

  /** The entries of a chain are the ids it was built from. */
  lemma AncestorsOfLinks(ids: seq<Id>)
    ensures Ancestors(Links(ids)) == ids
  {
  }

  /** Changing the referrer of `x` alone does not change a lineage that does not pass
      through `x`. */
  lemma {:induction false} LineageAvoiding(users: map<Id, User>, users': map<Id, User>, x: Id, start: Option<Id>, k: nat)
    requires users'.Keys == users.Keys
    requires forall v :: v in users && v != x ==> users'[v].referredBy == users[v].referredBy
    requires x !in Lineage(users, start, k)
    ensures Lineage(users', start, k) == Lineage(users, start, k)
    decreases k
  {
    if k > 0 && start.Some? && start.value in users {
      var next := users[start.value].referredBy;
      assert Lineage(users, start, k) == [start.value] + Lineage(users, next, k - 1);
      LineageAvoiding(users, users', x, next, k - 1);
    }
  }
}

=== FILE: referral_controller.dfy ===
/** The transactional use cases of controllers/referralController.js. Each transaction
    body is a function from the store to a new store or a rejection; a rejected call
    leaves the caller holding the store it passed in, which is the all-or-nothing
    behaviour of the source's transactions. */
module ReferralController {
  import opened Wrappers
  import opened Ledger
  import opened ReferralUtils
  import opened ReferralChain

  /** The rejection reasons of the referral use cases. */
  datatype ReferralError =
    | UserNotFound
    | CodeSpaceExhausted
    | MalformedCode
    | AlreadyReferred
    | CodeNotFound
    | OwnCode
    | CircularReferral
    | SelfReferralDetected
    | ReferrerMissing
    | ReferredMissing

  // ---------------------------------------------------------------------------
  // Code assignment

  const MaxAttempts := 5

  /** Four bytes from the random source. */
  type Draw = b: seq<byte> | |b| == CodeBytes witness [0, 0, 0, 0]

  /** The first attempt, from `from` on, whose generated code nobody holds. */
  function FirstFreeDraw(users: map<Id, User>, draws: seq<Draw>, from: nat): (r: Option<nat>)
    requires from <= MaxAttempts <= |draws|
    ensures r.Some? ==> from <= r.value < MaxAttempts
    ensures r.Some? ==> !CodeTaken(users, ReferralUtils.GenerateReferralCode(draws[r.value]))
    ensures r.Some? ==> forall j :: from <= j < r.value ==> CodeTaken(users, ReferralUtils.GenerateReferralCode(draws[j]))
    ensures r.None? ==> forall j :: from <= j < MaxAttempts ==> CodeTaken(users, ReferralUtils.GenerateReferralCode(draws[j]))
    decreases MaxAttempts - from
  {
    if from == MaxAttempts then None
    else if !CodeTaken(users, ReferralUtils.GenerateReferralCode(draws[from])) then Some(from)
    else FirstFreeDraw(users, draws, from + 1)
  }

  /** generateReferralCode: a participant who has a code gets it back unchanged;
      otherwise up to five random codes are tried and the first that nobody holds is
      assigned. `draws` stands for the random source, one entry per attempt. */
  function GenerateReferralCode(s: Store, id: Id, draws: seq<Draw>): (r: Result<(Store, string), ReferralError>)
    requires |draws| >= MaxAttempts
    ensures id !in s.users ==> r == Failure(UserNotFound)
    ensures id in s.users && HasCode(s.users[id]) ==> r == Success((s, s.users[id].referralCode.value))
    ensures id in s.users && !HasCode(s.users[id]) ==>
      (r.Failure? <==> forall j :: 0 <= j < MaxAttempts ==> CodeTaken(s.users, ReferralUtils.GenerateReferralCode(draws[j])))
    ensures r.Failure? ==> r.error == UserNotFound || r.error == CodeSpaceExhausted
    ensures r.Success? && !HasCode(s.users[id]) ==>
      && (exists k :: 0 <= k < MaxAttempts && r.value.1 == ReferralUtils.GenerateReferralCode(draws[k])
            && forall j :: 0 <= j < k ==> CodeTaken(s.users, ReferralUtils.GenerateReferralCode(draws[j])))
      && !CodeTaken(s.users, r.value.1)
      && r.value.0 == s.(users := s.users[id := s.users[id].(referralCode := Some(r.value.1))])
  {
    if id !in s.users then Failure(UserNotFound)
    else if HasCode(s.users[id]) then Success((s, s.users[id].referralCode.value))
    else match FirstFreeDraw(s.users, draws, 0)
      case None => Failure(CodeSpaceExhausted)
      case Some(k) =>
        var code := ReferralUtils.GenerateReferralCode(draws[k]);
        Success((s.(users := s.users[id := s.users[id].(referralCode := Some(code))]), code))
  }

  /** Asking twice gives the same code and changes nothing the second time. */
  lemma GenerateReferralCodeIdempotent(s: Store, id: Id, draws: seq<Draw>, draws': seq<Draw>)
    requires |draws| >= MaxAttempts && |draws'| >= MaxAttempts
    requires GenerateReferralCode(s, id, draws).Success?
    ensures var (s1, code) := GenerateReferralCode(s, id, draws).value;
      GenerateReferralCode(s1, id, draws') == Success((s1, code))
  {
    var (s1, code) := GenerateReferralCode(s, id, draws).value;
    if !HasCode(s.users[id]) {
      var k :| 0 <= k < MaxAttempts && code == ReferralUtils.GenerateReferralCode(draws[k]);
      assert |code| == CodeLength;
    }
  }

  /** Assigning a code keeps codes unique, and a newly assigned code is well formed (a
      code already held is returned as it is, whatever its form). */
  lemma GenerateReferralCodeKeepsCodesUnique(s: Store, id: Id, draws: seq<Draw>)
    requires |draws| >= MaxAttempts
    requires CodesUnique(s.users)
    requires GenerateReferralCode(s, id, draws).Success?
    ensures var (s1, code) := GenerateReferralCode(s, id, draws).value;
      && CodesUnique(s1.users) && s1.edges == s.edges
      && (!HasCode(s.users[id]) ==> ValidateReferralCode(Some(code)))
  {
    var (s1, code) := GenerateReferralCode(s, id, draws).value;
    if !HasCode(s.users[id]) {
      var k :| 0 <= k < MaxAttempts && code == ReferralUtils.GenerateReferralCode(draws[k]);
      forall a, b | a in s1.users && b in s1.users && a != b && HasCode(s1.users[a])
        ensures s1.users[a].referralCode != s1.users[b].referralCode
      {
        if a == id {
          assert s1.users[b] == s.users[b];
        } else if b == id {
          assert s1.users[a] == s.users[a];
          assert s.users[a].referralCode != Some(code);
        }
      }
    }
  }

  // ---------------------------------------------------------------------------
  // Applying a code

  /** `findOne({ referralCode: code })`. The lookup assumes at most one participant holds a
      code, which `GenerateReferralCodeKeepsCodesUnique` shows code generation keeps. */
  function CodeOwner(users: map<Id, User>, code: string): (r: Option<Id>)
    requires CodesUnique(users) && code != []
    ensures r.Some? <==> CodeTaken(users, code)
    ensures r.Some? ==> r.value in users && users[r.value].referralCode == Some(code)
  {
    if CodeTaken(users, code) then
      var id :| id in users && users[id].referralCode == Some(code);
      Some(id)
    else None
  }

  /** One new active edge per chain ancestor, tier 1 first, each carrying the code. */
  function BindingEdges(ancestors: seq<Id>, applicant: Id, code: string, now: int): (es: seq<Edge>)
    requires |ancestors| <= MaxTier
    ensures |es| == |ancestors|
  {
    seq(|ancestors|, i requires 0 <= i < |ancestors| => NewEdge(ancestors[i], applicant, code, i + 1, now))
  }

  function ChainFailure(e: ChainError): ReferralError {
    match e
    case CircularChain => CircularReferral
    case SelfReferral => SelfReferralDetected
  }

  /** applyReferralCode for `applicant` submitting `code` at time `now`. */
  function ApplyReferralCode(s: Store, applicant: Id, code: Option<string>, now: int): (r: Result<Store, ReferralError>)
    requires CodesUnique(s.users)
    ensures !ValidateReferralCode(code) ==> r == Failure(MalformedCode)
    ensures ValidateReferralCode(code) && applicant !in s.users ==> r == Failure(UserNotFound)
    ensures ValidateReferralCode(code) && applicant in s.users && s.users[applicant].referredBy.Some? ==>
      r == Failure(AlreadyReferred)
    ensures ValidateReferralCode(code) && applicant in s.users && s.users[applicant].referredBy.None? ==>
      (!CodeTaken(s.users, code.value) ==> r == Failure(CodeNotFound))
      && (s.users[applicant].referralCode == code ==> r == Failure(OwnCode))
    ensures r.Success? ==>
      && ValidateReferralCode(code) && applicant in s.users && s.users[applicant].referredBy.None?
      && CodeTaken(s.users, code.value) && s.users[applicant].referralCode != code
    ensures r.Success? ==>
      var referrer := CodeOwner(s.users, code.value).value;
      var chain := ChainOf(s.users, referrer, applicant, MaxTier);
      && chain.Success?
      && var ids := Ancestors(chain.value);
      && ids != [] && ids[0] == referrer
      && r.value.users.Keys == s.users.Keys
      && r.value.users[applicant] == s.users[applicant].(referredBy := Some(referrer), referralChain := ids)
      && r.value.users[referrer] == s.users[referrer].(referrals := s.users[referrer].referrals + [applicant])
      && (forall id :: id in s.users && id != applicant && id != referrer ==> r.value.users[id] == s.users[id])
      && |r.value.edges| == |s.edges| + |ids|
      && r.value.edges[..|s.edges|] == s.edges
      && (forall i :: 0 <= i < |ids| ==>
            r.value.edges[|s.edges| + i] == Edge(ids[i], applicant, code.value, Active, i + 1, 0, now, None))
  {
    if !ValidateReferralCode(code) then Failure(MalformedCode)
    else if applicant !in s.users then Failure(UserNotFound)
    else if s.users[applicant].referredBy.Some? then Failure(AlreadyReferred)
    else match CodeOwner(s.users, code.value)
      case None => Failure(CodeNotFound)
      case Some(referrerId) =>
        if referrerId == applicant then Failure(OwnCode)
        else match ChainOf(s.users, referrerId, applicant, MaxTier)
          case Failure(e) => Failure(ChainFailure(e))
          case Success(chain) =>
            ChainLinkage(s.users, referrerId, applicant, MaxTier);
            var ids := Ancestors(chain);
            var user := s.users[applicant].(referredBy := Some(referrerId), referralChain := ids);
            var referrer := s.users[referrerId];
            var users := s.users[applicant := user][referrerId := referrer.(referrals := referrer.referrals + [applicant])];
            Success(Store(users, s.edges + BindingEdges(ids, applicant, code.value, now)))
  }

  /** Past the request checks, the binding fails exactly when the chain walk from the
      code's owner fails, and with the walk's error. */
  lemma ApplyFollowsChain(s: Store, applicant: Id, code: Option<string>, now: int)
    requires CodesUnique(s.users)
    requires ValidateReferralCode(code) && applicant in s.users && s.users[applicant].referredBy.None?
    requires CodeTaken(s.users, code.value) && s.users[applicant].referralCode != code
    ensures var chain := ChainOf(s.users, CodeOwner(s.users, code.value).value, applicant, MaxTier);
      var r := ApplyReferralCode(s, applicant, code, now);
      && (r.Failure? <==> chain.Failure?)
      && (chain.Failure? ==> r == Failure(ChainFailure(chain.error)))
  {
  }

  /** A successful application binds the applicant for good: any later code is refused. */
  lemma ReapplyRejected(s: Store, applicant: Id, code: Option<string>, now: int, code': Option<string>, now': int)
    requires CodesUnique(s.users)
    requires ApplyReferralCode(s, applicant, code, now).Success?
    ensures var s1 := ApplyReferralCode(s, applicant, code, now).value;
      && CodesUnique(s1.users)
      && ApplyReferralCode(s1, applicant, code', now').Failure?
      && ApplyReferralCode(s1, applicant, code', now').error in {MalformedCode, AlreadyReferred}
  {
    var s1 := ApplyReferralCode(s, applicant, code, now).value;
    assert forall id :: id in s1.users ==> s1.users[id].referralCode == s.users[id].referralCode;
  }

  // ---------------------------------------------------------------------------
  // Reward distribution over persisted edges

  /** What one edge pays when `userId` earns `xp`: for an active edge into `userId`, the
      tier's reward, unless the calculation fails, the reward is not positive, or the
      referrer no longer resolves, each of which skips just this edge. */
  function Payout(users: map<Id, User>, e: Edge, userId: Id, xp: int): int {
    if e.referred != userId || !IsActive(e) then 0
    else match CalculateReferralReward(e.tier, xp)
      case Failure(_) => 0
      case Success(amount) => if amount <= 0 || e.referrer !in users then 0 else amount
  }

  /** The edge after its reward, if any, is recorded. */
  function PayEdge(users: map<Id, User>, e: Edge, userId: Id, xp: int, now: int): Edge {
    var p := Payout(users, e, userId, xp);
    if p > 0 then e.(totalRewardsDistributed := e.totalRewardsDistributed + p, lastRewardDate := Some(now))
    else e
  }

  function PayEdges(users: map<Id, User>, edges: seq<Edge>, userId: Id, xp: int, now: int): (r: seq<Edge>)
    ensures |r| == |edges|
    ensures forall i :: 0 <= i < |edges| ==> r[i] == PayEdge(users, edges[i], userId, xp, now)
    decreases |edges|
  {
    if edges == [] then []
    else [PayEdge(users, edges[0], userId, xp, now)] + PayEdges(users, edges[1..], userId, xp, now)
  }

  /** The sum of the payouts of the edges whose referrer is `v`. */
  function EarnedBy(users: map<Id, User>, edges: seq<Edge>, userId: Id, xp: int, v: Id): int
    decreases |edges|
  {
    if edges == [] then 0
    else
      var own := if edges[0].referrer == v then Payout(users, edges[0], userId, xp) else 0;
      own + EarnedBy(users, edges[1..], userId, xp, v)
  }

  /** The referrer's balance and referral earnings after one edge's payout. */
  function CreditReferrer(users: map<Id, User>, referrer: Id, amount: int): map<Id, User> {
    if amount > 0 && referrer in users then
      users[referrer := users[referrer].(xp := users[referrer].xp + amount,
                                         totalReferralXP := users[referrer].totalReferralXP + amount)]
    else users
  }

  /** The referrers credited edge by edge, payouts read against the `snapshot` the query
      returned. */
  function CreditAll(snapshot: map<Id, User>, users: map<Id, User>, edges: seq<Edge>, userId: Id, xp: int)
    : map<Id, User>
    decreases |edges|
  {
    if edges == [] then users
    else
      var e := edges[0];
      CreditAll(snapshot, CreditReferrer(users, e.referrer, Payout(snapshot, e, userId, xp)), edges[1..], userId, xp)
  }

  lemma {:induction false} CreditAllAddsEarnings(snapshot: map<Id, User>, users: map<Id, User>, edges: seq<Edge>, userId: Id, xp: int)
    requires users.Keys == snapshot.Keys
    ensures var r := CreditAll(snapshot, users, edges, userId, xp);
      && r.Keys == users.Keys
      && forall v :: v in users ==>
        var gain := EarnedBy(snapshot, edges, userId, xp, v);
        r[v] == users[v].(xp := users[v].xp + gain, totalReferralXP := users[v].totalReferralXP + gain)
    decreases |edges|
  {
    if edges != [] {
      var e := edges[0];
      var p := Payout(snapshot, e, userId, xp);
      var users1 := CreditReferrer(users, e.referrer, p);
      CreditAllAddsEarnings(snapshot, users1, edges[1..], userId, xp);
    }
  }

  /** processReferralReward for `userId` earning `xp` at time `now`. Each active edge into
      `userId` pays its tier's reward to its edge total and to its referrer's balance and
      referral earnings; every other edge and every other field is left alone. */
  function ProcessReferralReward(s: Store, userId: Id, xp: int, now: int): (r: Store)
    ensures r.users.Keys == s.users.Keys
    ensures forall v :: v in s.users ==>
      var gain := EarnedBy(s.users, s.edges, userId, xp, v);
      r.users[v] == s.users[v].(xp := s.users[v].xp + gain, totalReferralXP := s.users[v].totalReferralXP + gain)
    ensures |r.edges| == |s.edges|
    ensures forall i :: 0 <= i < |s.edges| ==>
      var p := Payout(s.users, s.edges[i], userId, xp);
      r.edges[i] == s.edges[i].(totalRewardsDistributed := s.edges[i].totalRewardsDistributed + p,
                                lastRewardDate := if p > 0 then Some(now) else s.edges[i].lastRewardDate)
  {
    CreditAllAddsEarnings(s.users, s.users, s.edges, userId, xp);
    Store(CreditAll(s.users, s.users, s.edges, userId, xp), PayEdges(s.users, s.edges, userId, xp, now))
  }

  /** For an active edge into the earner whose referrer resolves, the payout is exactly
      the calculated reward; edges that are inactive, into someone else or from a referrer
      with no record pay nothing. */
  lemma PayoutIsReward(users: map<Id, User>, e: Edge, userId: Id, xp: int)
    ensures Payout(users, e, userId, xp) >= 0
    ensures e.referred == userId && IsActive(e) && e.referrer in users && xp >= 0 ==>
      Payout(users, e, userId, xp) == CalculateReferralReward(e.tier, xp).value
    ensures e.referred != userId || !IsActive(e) || e.referrer !in users || xp < 0 ==>
      Payout(users, e, userId, xp) == 0
  {
  }

  lemma {:induction false} EarnedByNonNegative(users: map<Id, User>, edges: seq<Edge>, userId: Id, xp: int, v: Id)
    ensures EarnedBy(users, edges, userId, xp, v) >= 0
    decreases |edges|
  {
    if edges != [] {
      PayoutIsReward(users, edges[0], userId, xp);
      EarnedByNonNegative(users, edges[1..], userId, xp, v);
    }
  }

  /** Rewards only ever grow balances, referral earnings and edge totals. */
  lemma ProcessRewardMonotone(s: Store, userId: Id, xp: int, now: int)
    ensures var r := ProcessReferralReward(s, userId, xp, now);
      && (forall v :: v in s.users ==>
            r.users[v].xp >= s.users[v].xp && r.users[v].totalReferralXP >= s.users[v].totalReferralXP)
      && (forall i :: 0 <= i < |s.edges| ==>
            r.edges[i].totalRewardsDistributed >= s.edges[i].totalRewardsDistributed)
  {
    forall v | v in s.users {
      EarnedByNonNegative(s.users, s.edges, userId, xp, v);
    }
    forall i | 0 <= i < |s.edges| {
      PayoutIsReward(s.users, s.edges[i], userId, xp);
    }
  }

  /** The rewards recorded on the edges from `v`. */
  function Distributed(edges: seq<Edge>, v: Id): int
    decreases |edges|
  {
    if edges == [] then 0
    else (if edges[0].referrer == v then edges[0].totalRewardsDistributed else 0) + Distributed(edges[1..], v)
  }

  /** Every participant's referral earnings equal the rewards recorded on its edges. */
  predicate Balanced(s: Store) {
    forall v :: v in s.users ==> s.users[v].totalReferralXP == Distributed(s.edges, v)
  }

  lemma {:induction false} DistributedAfterPay(users: map<Id, User>, edges: seq<Edge>, userId: Id, xp: int, now: int, v: Id)
    ensures Distributed(PayEdges(users, edges, userId, xp, now), v)
      == Distributed(edges, v) + EarnedBy(users, edges, userId, xp, v)
    decreases |edges|
  {
    if edges != [] {
      DistributedAfterPay(users, edges[1..], userId, xp, now, v);
      var paid := PayEdges(users, edges, userId, xp, now);
      assert paid[1..] == PayEdges(users, edges[1..], userId, xp, now);
    }
  }

  /** Each reward lands on the edge and on the referrer's earnings alike, so the two
      records keep agreeing. */
  lemma ProcessRewardKeepsBalance(s: Store, userId: Id, xp: int, now: int)
    requires Balanced(s)
    ensures Balanced(ProcessReferralReward(s, userId, xp, now))
  {
    var r := ProcessReferralReward(s, userId, xp, now);
    forall v | v in r.users ensures r.users[v].totalReferralXP == Distributed(r.edges, v) {
      DistributedAfterPay(s.users, s.edges, userId, xp, now, v);
    }
  }

  lemma {:induction false} DistributedAppend(edges: seq<Edge>, more: seq<Edge>, v: Id)
    requires forall i :: 0 <= i < |more| ==> more[i].totalRewardsDistributed == 0
    ensures Distributed(edges + more, v) == Distributed(edges, v)
    decreases |edges| + |more|
  {
    if edges == [] {
      if more != [] {
        assert (edges + more)[1..] == [] + more[1..];
        DistributedAppend([], more[1..], v);
      }
    } else {
      assert (edges + more)[1..] == edges[1..] + more;
      DistributedAppend(edges[1..], more, v);
    }
  }

  /** Binding adds zero-total edges and touches no earnings, so the records keep agreeing. */
  lemma ApplyKeepsBalance(s: Store, applicant: Id, code: Option<string>, now: int)
    requires CodesUnique(s.users) && Balanced(s)
    requires ApplyReferralCode(s, applicant, code, now).Success?
    ensures Balanced(ApplyReferralCode(s, applicant, code, now).value)
  {
    var r := ApplyReferralCode(s, applicant, code, now).value;
    var more := r.edges[|s.edges|..];
    assert r.edges == s.edges + more;
    forall v | v in r.users ensures r.users[v].totalReferralXP == Distributed(r.edges, v) {
      DistributedAppend(s.edges, more, v);
    }
  }

  /** The edges a binding writes meet the schema (a required non-empty code, the default
      active status, no reward date yet, a tier in 1..3) and start the reward total at 0,
      so the edge invariant of the model is kept. */
  lemma ApplyKeepsEdgesValid(s: Store, applicant: Id, code: Option<string>, now: int)
    requires CodesUnique(s.users) && AllValid(s.edges)
    requires ApplyReferralCode(s, applicant, code, now).Success?
    ensures var r := ApplyReferralCode(s, applicant, code, now).value;
      && AllValid(r.edges)
      && forall i :: |s.edges| <= i < |r.edges| ==>
           r.edges[i].status == Active && r.edges[i].totalRewardsDistributed == 0
           && r.edges[i].lastRewardDate.None? && |r.edges[i].code| == CodeLength
  {
    var r := ApplyReferralCode(s, applicant, code, now).value;
    var n := |s.edges|;
    var es := r.edges[n..];
    assert r.edges == s.edges + es by {
      assert r.edges[..n] == s.edges;
    }
    forall j | 0 <= j < |es|
      ensures es[j].status == Active && es[j].totalRewardsDistributed == 0
      ensures es[j].lastRewardDate.None? && |es[j].code| == CodeLength
    {
      assert es[j] == r.edges[n + j];
    }
    AppendValid(s.edges, es);
  }

  lemma AppendValid(edges: seq<Edge>, more: seq<Edge>)
    requires AllValid(edges)
    requires forall j :: 0 <= j < |more| ==> more[j].totalRewardsDistributed == 0 && |more[j].code| == CodeLength
    ensures AllValid(edges + more)
  {
    forall i | 0 <= i < |edges + more| ensures ValidEdge((edges + more)[i]) {
      if i >= |edges| {
        assert (edges + more)[i] == more[i - |edges|];
      }
    }
  }

  /** Rewards are never negative, so reward totals stay non-negative. */
  lemma ProcessRewardKeepsEdgesValid(s: Store, userId: Id, xp: int, now: int)
    requires AllValid(s.edges)
    ensures AllValid(ProcessReferralReward(s, userId, xp, now).edges)
  {
    var r := ProcessReferralReward(s, userId, xp, now);
    forall i | 0 <= i < |r.edges| ensures ValidEdge(r.edges[i]) {
      PayoutIsReward(s.users, s.edges[i], userId, xp);
    }
  }

  // ---------------------------------------------------------------------------
  // Reporting

  /** An active edge from `id` at tier `t`. */
  predicate FromAt(e: Edge, id: Id, t: int) {
    e.referrer == id && IsActive(e) && e.tier == t
  }

  /** The number of active edges from `id` at tier `t`. */
  function TierCount(edges: seq<Edge>, id: Id, t: int): nat
    decreases |edges|
  {
    if edges == [] then 0
    else TierCount(edges[..|edges| - 1], id, t) + (if FromAt(edges[|edges| - 1], id, t) then 1 else 0)
  }

  /** The rewards recorded on the active edges from `id` at tier `t`. */
  function TierEarnings(edges: seq<Edge>, id: Id, t: int): int
    decreases |edges|
  {
    if edges == [] then 0
    else
      var last := edges[|edges| - 1];
      TierEarnings(edges[..|edges| - 1], id, t) + (if FromAt(last, id, t) then last.totalRewardsDistributed else 0)
  }

  datatype TierStat = TierStat(tier: Tier, count: nat, earnings: int)

  /** The grouping the statistics report: one entry per tier that has an active edge
      from `id`, with that tier's count and rewards, in increasing tier order. */
  predicate TierStatsOf(edges: seq<Edge>, id: Id, stats: seq<TierStat>) {
    && (forall k :: 0 <= k < |stats| ==>
          stats[k].count == TierCount(edges, id, stats[k].tier) > 0
          && stats[k].earnings == TierEarnings(edges, id, stats[k].tier))
    && (forall k, l :: 0 <= k < l < |stats| ==> stats[k].tier < stats[l].tier)
    && (forall t :: 1 <= t <= MaxTier && TierCount(edges, id, t) > 0 ==>
          exists k :: 0 <= k < |stats| && stats[k].tier == t)
  }

  lemma TierTotalsStep(edges: seq<Edge>, i: nat, id: Id, t: int)
    requires i < |edges|
    ensures TierCount(edges[..i + 1], id, t)
      == TierCount(edges[..i], id, t) + (if FromAt(edges[i], id, t) then 1 else 0)
    ensures TierEarnings(edges[..i + 1], id, t)
      == TierEarnings(edges[..i], id, t) + (if FromAt(edges[i], id, t) then edges[i].totalRewardsDistributed else 0)
  {
    assert edges[..i + 1][..i] == edges[..i];
  }

  /** The `$match` and `$group` stages: per tier, the count and summed rewards of the
      active edges from `id`. */
  method CountByTier(edges: seq<Edge>, id: Id) returns (counts: seq<nat>, sums: seq<int>)
    ensures |counts| == MaxTier && |sums| == MaxTier
    ensures forall t :: 1 <= t <= MaxTier ==>
      counts[t - 1] == TierCount(edges, id, t) && sums[t - 1] == TierEarnings(edges, id, t)
  {
    counts, sums := [0, 0, 0], [0, 0, 0];
    var i := 0;
    while i < |edges|
      invariant 0 <= i <= |edges|
      invariant |counts| == MaxTier && |sums| == MaxTier
      invariant forall t :: 1 <= t <= MaxTier ==>
        counts[t - 1] == TierCount(edges[..i], id, t) && sums[t - 1] == TierEarnings(edges[..i], id, t)
    {
      var e := edges[i];
      forall t | 1 <= t <= MaxTier {
        TierTotalsStep(edges, i, id, t);
      }
      if e.referrer == id && IsActive(e) {
        counts := counts[e.tier - 1 := counts[e.tier - 1] + 1];
        sums := sums[e.tier - 1 := sums[e.tier - 1] + e.totalRewardsDistributed];
      }
      i := i + 1;
    }
    assert edges[..i] == edges;
  }

  /** `stats` lists exactly the tiers below `t` that have active edges from `id`. */
  predicate StatsBelow(edges: seq<Edge>, id: Id, stats: seq<TierStat>, t: int) {
    && (forall k :: 0 <= k < |stats| ==>
          stats[k].tier < t && stats[k].count == TierCount(edges, id, stats[k].tier) > 0
          && stats[k].earnings == TierEarnings(edges, id, stats[k].tier))
    && (forall k, l :: 0 <= k < l < |stats| ==> stats[k].tier < stats[l].tier)
    && (forall u :: 1 <= u < t && TierCount(edges, id, u) > 0 ==>
          exists k :: 0 <= k < |stats| && stats[k].tier == u)
  }

  lemma StatsBelowNext(edges: seq<Edge>, id: Id, stats: seq<TierStat>, t: Tier)
    requires StatsBelow(edges, id, stats, t)
    ensures TierCount(edges, id, t) > 0 ==>
      StatsBelow(edges, id, stats + [TierStat(t, TierCount(edges, id, t), TierEarnings(edges, id, t))], t + 1)
    ensures TierCount(edges, id, t) == 0 ==> StatsBelow(edges, id, stats, t + 1)
  {
    if TierCount(edges, id, t) > 0 {
      var next := stats + [TierStat(t, TierCount(edges, id, t), TierEarnings(edges, id, t))];
      forall u | 1 <= u < t + 1 && TierCount(edges, id, u) > 0
        ensures exists k :: 0 <= k < |next| && next[k].tier == u
      {
        if u == t {
          assert next[|next| - 1].tier == u;
        } else {
          var k :| 0 <= k < |stats| && stats[k].tier == u;
          assert next[k].tier == u;
        }
      }
    }
  }

  /** The `$match` / `$group` by tier / `$sort` aggregation of getReferralStats. */
  method AggregateByTier(edges: seq<Edge>, id: Id) returns (stats: seq<TierStat>)
    ensures TierStatsOf(edges, id, stats)
  {
    var counts, sums := CountByTier(edges, id);
    stats := [];
    var t := 1;
    while t <= MaxTier
      invariant 1 <= t <= MaxTier + 1
      invariant StatsBelow(edges, id, stats, t)
    {
      StatsBelowNext(edges, id, stats, t);
      if counts[t - 1] > 0 {
        stats := stats + [TierStat(t, counts[t - 1], sums[t - 1])];
      }
      t := t + 1;
    }
  }

  datatype ReferralStats = ReferralStats(
    referralCode: Option<string>,
    totalReferrals: nat,
    totalEarnings: int,
    tierStats: seq<TierStat>)

  /** A direct referral of `id` whose referred participant has no record. */
  predicate DirectReferralMissing(s: Store, id: Id) {
    exists e :: e in s.edges && e.referrer == id && e.tier == 1 && IsActive(e) && e.referred !in s.users
  }

  /** getReferralStats without the presentation fields (share link, referred profiles). The
      list of direct referrals reads each referred participant's name, so a direct referral
      whose referred participant has no record makes the request fail. */
  method GetReferralStats(s: Store, id: Id) returns (r: Result<ReferralStats, ReferralError>)
    ensures r.Failure? <==> id !in s.users || DirectReferralMissing(s, id)
    ensures r.Failure? ==> r.error == (if id !in s.users then UserNotFound else ReferredMissing)
    ensures r.Success? ==>
      && r.value.referralCode == s.users[id].referralCode
      && r.value.totalReferrals == |s.users[id].referrals|
      && r.value.totalEarnings == s.users[id].totalReferralXP
      && TierStatsOf(s.edges, id, r.value.tierStats)
  {
    if id !in s.users {
      return Failure(UserNotFound);
    }
    if exists e :: e in s.edges && e.referrer == id && e.tier == 1 && IsActive(e) && e.referred !in s.users {
      return Failure(ReferredMissing);
    }
    var u := s.users[id];
    var tiers := AggregateByTier(s.edges, id);
    return Success(ReferralStats(u.referralCode, |u.referrals|, u.totalReferralXP, tiers));
  }

  /** The active edges into `id`, in store order. */
  function Received(edges: seq<Edge>, id: Id): seq<Edge>
    decreases |edges|
  {
    if edges == [] then []
    else (if IsActive(edges[0]) && edges[0].referred == id then [edges[0]] else []) + Received(edges[1..], id)
  }

  /** The active edges into `id` at tier `t`, in store order. */
  function ReceivedAt(edges: seq<Edge>, id: Id, t: int): seq<Edge>
    decreases |edges|
  {
    if edges == [] then []
    else
      var e := edges[0];
      (if IsActive(e) && e.referred == id && e.tier == t then [e] else []) + ReceivedAt(edges[1..], id, t)
  }

  /** Received keeps exactly the active edges into `id`. */
  lemma {:induction false} ReceivedMembers(edges: seq<Edge>, id: Id)
    ensures forall e :: e in Received(edges, id) <==> e in edges && IsActive(e) && e.referred == id
    decreases |edges|
  {
    if edges != [] {
      ReceivedMembers(edges[1..], id);
      assert edges == [edges[0]] + edges[1..];
    }
  }

  /** ReceivedAt keeps exactly the active edges into `id` at tier `t`. */
  lemma {:induction false} ReceivedAtMembers(edges: seq<Edge>, id: Id, t: int)
    ensures forall e :: e in ReceivedAt(edges, id, t) <==> e in edges && IsActive(e) && e.referred == id && e.tier == t
    decreases |edges|
  {
    if edges != [] {
      ReceivedAtMembers(edges[1..], id, t);
      assert edges == [edges[0]] + edges[1..];
    }
  }

  function SumRewards(es: seq<Edge>): int
    decreases |es|
  {
    if es == [] then 0 else es[0].totalRewardsDistributed + SumRewards(es[1..])
  }

  lemma {:induction false} SumRewardsConcat(a: seq<Edge>, b: seq<Edge>)
    ensures SumRewards(a + b) == SumRewards(a) + SumRewards(b)
    decreases |a|
  {
    if a == [] {
      assert a + b == b;
    } else {
      assert (a + b)[1..] == a[1..] + b;
      SumRewardsConcat(a[1..], b);
    }
  }

  /** The first edge's contribution to the active edges into `id`, as a multiset. */
  lemma ReceivedStep(edges: seq<Edge>, id: Id)
    requires edges != []
    ensures multiset(Received(edges, id))
      == (if IsActive(edges[0]) && edges[0].referred == id then multiset{edges[0]} else multiset{})
         + multiset(Received(edges[1..], id))
  {
  }

  /** The first edge's contribution to the active edges into `id` at tier `t`. */
  lemma ReceivedAtStep(edges: seq<Edge>, id: Id, t: int)
    requires edges != []
    ensures multiset(ReceivedAt(edges, id, t))
      == (if IsActive(edges[0]) && edges[0].referred == id && edges[0].tier == t then multiset{edges[0]} else multiset{})
         + multiset(ReceivedAt(edges[1..], id, t))
  {
  }

  /** Splitting the incoming edges by tier loses and invents nothing. */
  lemma {:induction false} TierBucketsPartition(edges: seq<Edge>, id: Id)
    ensures multiset(Received(edges, id))
      == multiset(ReceivedAt(edges, id, 1)) + multiset(ReceivedAt(edges, id, 2)) + multiset(ReceivedAt(edges, id, 3))
    decreases |edges|
  {
    if edges != [] {
      TierBucketsPartition(edges[1..], id);
      ReceivedStep(edges, id);
      ReceivedAtStep(edges, id, 1);
      ReceivedAtStep(edges, id, 2);
      ReceivedAtStep(edges, id, 3);
    }
  }

  /** Splitting the incoming edges by tier keeps their reward sum. */
  lemma {:induction false} TierBucketsSum(edges: seq<Edge>, id: Id)
    ensures SumRewards(Received(edges, id))
      == SumRewards(ReceivedAt(edges, id, 1)) + SumRewards(ReceivedAt(edges, id, 2)) + SumRewards(ReceivedAt(edges, id, 3))
    decreases |edges|
  {
    if edges != [] {
      TierBucketsSum(edges[1..], id);
      var e := edges[0];
      var gets := IsActive(e) && e.referred == id;
      SumRewardsConcat(if gets then [e] else [], Received(edges[1..], id));
      SumRewardsConcat(if gets && e.tier == 1 then [e] else [], ReceivedAt(edges[1..], id, 1));
      SumRewardsConcat(if gets && e.tier == 2 then [e] else [], ReceivedAt(edges[1..], id, 2));
      SumRewardsConcat(if gets && e.tier == 3 then [e] else [], ReceivedAt(edges[1..], id, 3));
    }
  }

  lemma ConcatSortedByTier(a: seq<Edge>, b: seq<Edge>, c: seq<Edge>)
    requires forall e :: e in a ==> e.tier == 1
    requires forall e :: e in b ==> e.tier == 2
    requires forall e :: e in c ==> e.tier == 3
    ensures forall k, l :: 0 <= k < l < |a + b + c| ==> (a + b + c)[k].tier <= (a + b + c)[l].tier
  {
    var s := a + b + c;
    forall k | 0 <= k < |s|
      ensures s[k].tier == (if k < |a| then 1 else if k < |a| + |b| then 2 else 3)
    {
      if k < |a| {
        assert s[k] == a[k];
      } else if k < |a| + |b| {
        assert s[k] == b[k - |a|];
      } else {
        assert s[k] == c[k - |a| - |b|];
      }
    }
  }

  datatype IncomingRewards = IncomingRewards(rewards: seq<Edge>, totalRewardsReceived: int)

  /** getUserReferralRewards: the active edges into `id`, sorted by tier, and the sum of
      their recorded rewards. Each listed edge's referrer is read for its name, so an edge
      whose referrer has no record makes the call fail. */
  function GetUserReferralRewards(s: Store, id: Id): (r: Result<IncomingRewards, ReferralError>)
    ensures r.Failure? <==> exists e :: e in Received(s.edges, id) && e.referrer !in s.users
    ensures r.Failure? ==> r.error == ReferrerMissing
    ensures r.Success? ==> forall k, l :: 0 <= k < l < |r.value.rewards| ==> r.value.rewards[k].tier <= r.value.rewards[l].tier
    ensures r.Success? ==> multiset(r.value.rewards) == multiset(Received(s.edges, id))
    ensures r.Success? ==> r.value.totalRewardsReceived == SumRewards(Received(s.edges, id))
  {
    if exists e :: e in Received(s.edges, id) && e.referrer !in s.users then Failure(ReferrerMissing)
    else Success(IncomingOf(s.edges, id))
  }

  /** The sorted list and total of the active edges into `id`. */
  function IncomingOf(edges: seq<Edge>, id: Id): (r: IncomingRewards)
    ensures forall k, l :: 0 <= k < l < |r.rewards| ==> r.rewards[k].tier <= r.rewards[l].tier
    ensures multiset(r.rewards) == multiset(Received(edges, id))
    ensures r.totalRewardsReceived == SumRewards(Received(edges, id))
  {
    var t1, t2, t3 := ReceivedAt(edges, id, 1), ReceivedAt(edges, id, 2), ReceivedAt(edges, id, 3);
    var sorted := t1 + t2 + t3;
    TierBucketsPartition(edges, id);
    TierBucketsSum(edges, id);
    SumRewardsConcat(t1, t2);
    SumRewardsConcat(t1 + t2, t3);
    ReceivedAtMembers(edges, id, 1);
    ReceivedAtMembers(edges, id, 2);
    ReceivedAtMembers(edges, id, 3);
    ConcatSortedByTier(t1, t2, t3);
    IncomingRewards(sorted, SumRewards(sorted))
  }
}

=== FILE: referral_utils.dfy ===
/** Referral code format and the tiered reward schedule (utils/referralUtils.js). */
module ReferralUtils {
  import opened Wrappers

  newtype byte = x: int | 0 <= x < 256

  // ---------------------------------------------------------------------------
  // Characters

  predicate IsUpperHexChar(c: char) {
    ('0' <= c <= '9') || ('A' <= c <= 'F')
  }

  /** A character the pattern `[0-9A-F]` accepts under the case-insensitive flag. */
  predicate IsHexChar(c: char) {
    IsUpperHexChar(c) || ('a' <= c <= 'f')
  }

  /** The digit `Buffer.toString('hex')` writes for a nibble: lower-case. */
  function LowerHexDigit(n: int): (c: char)
    requires 0 <= n < 16
  {
    if n < 10 then (n + '0' as int) as char else (n - 10 + 'a' as int) as char
  }

  /** `String.prototype.toUpperCase` on the characters a hex encoding can contain. */
  function UpperChar(c: char): char {
    if 'a' <= c <= 'z' then (c as int - 32) as char else c
  }

  function ToUpperCase(s: string): (u: string)
    ensures |u| == |s|
  {
    seq(|s|, i requires 0 <= i < |s| => UpperChar(s[i]))
  }

  /** The value of a hex digit of either case. */
  function DigitValue(c: char): int
    requires IsHexChar(c)
  {
    if '0' <= c <= '9' then c as int - '0' as int
    else if 'A' <= c <= 'F' then c as int - 'A' as int + 10
    else c as int - 'a' as int + 10
  }

  // ---------------------------------------------------------------------------
  // Hex encoding of random bytes

  /** `Buffer.toString('hex')`: two lower-case digits per byte, high nibble first. */
  function HexEncode(bytes: seq<byte>): (s: string)
    ensures |s| == 2 * |bytes|
    ensures forall i :: 0 <= i < |s| ==> IsHexChar(s[i]) && !('A' <= s[i] <= 'F')
  {
    if bytes == [] then []
    else
      var b := bytes[0] as int;
      [LowerHexDigit(b / 16), LowerHexDigit(b % 16)] + HexEncode(bytes[1..])
  }

  /** The inverse of the encoding, accepting digits of either case. */
  function HexDecode(s: string): Option<seq<byte>>
    decreases |s|
  {
    if s == [] then Some([])
    else if |s| == 1 || !IsHexChar(s[0]) || !IsHexChar(s[1]) then None
    else
      match HexDecode(s[2..])
      case None => None
      case Some(rest) => Some([(DigitValue(s[0]) * 16 + DigitValue(s[1])) as byte] + rest)
  }

  const CodeBytes := 4
  const CodeLength := 8

  /** generateReferralCode: four random bytes, hex-encoded, upper-cased.
      The random bytes are a parameter; the model has no randomness. */
  function GenerateReferralCode(random: seq<byte>): (code: string)
    requires |random| == CodeBytes
    ensures |code| == CodeLength
    ensures forall i :: 0 <= i < |code| ==> IsUpperHexChar(code[i])
    ensures ValidateReferralCode(Some(code))
  {
    var code := ToUpperCase(HexEncode(random));
    UpperHexIsValid(code);
    DecodeUpperEncode(random);
    code
  }

  // ---------------------------------------------------------------------------
  // Validation

  /** True when every character of `s` is a hex digit of either case. */
  predicate AllHex(s: string)
    decreases |s|
  {
    s == [] || (IsHexChar(s[0]) && AllHex(s[1..]))
  }

  /** validateReferralCode. `None` stands for a missing or non-string value. The empty
      string is falsy and rejected first; otherwise the length must be 8 and the whole
      string must match `[0-9A-F]{8}` case-insensitively. */
  predicate ValidateReferralCode(code: Option<string>) {
    match code
    case None => false
    case Some(s) => s != [] && |s| == CodeLength && AllHex(s)
  }

  lemma {:induction false} AllHexIff(s: string)
    ensures AllHex(s) <==> forall i :: 0 <= i < |s| ==> IsHexChar(s[i])
    decreases |s|
  {
    if s != [] {
      AllHexIff(s[1..]);
      assert forall i :: 1 <= i < |s| ==> s[i] == s[1..][i - 1];
    }
  }

  /** A code validates exactly when it has eight characters, each a hex digit of either case. */
  lemma ValidateReferralCodeIff(s: string)
    ensures ValidateReferralCode(Some(s)) <==> |s| == 8 && forall i :: 0 <= i < |s| ==> IsHexChar(s[i])
  {
    AllHexIff(s);
  }

  /** Missing, non-string and empty inputs are rejected. */
  lemma ValidateRejectsMissingOrEmpty()
    ensures !ValidateReferralCode(None)
    ensures !ValidateReferralCode(Some(""))
  {
  }

  /** The check ignores case: a code and its upper-cased form are accepted alike. */
  lemma ValidateIgnoresCase(s: string)
    ensures ValidateReferralCode(Some(s)) <==> ValidateReferralCode(Some(ToUpperCase(s)))
  {
    var u := ToUpperCase(s);
    AllHexIff(s);
    AllHexIff(u);
    assert forall i :: 0 <= i < |s| ==> (IsHexChar(s[i]) <==> IsHexChar(u[i]));
  }

  lemma UpperHexIsValid(code: string)
    requires |code| == CodeLength
    requires forall i :: 0 <= i < |code| ==> IsUpperHexChar(code[i])
    ensures ValidateReferralCode(Some(code))
  {
    AllHexIff(code);
  }

  /** Upper-casing the digit of a nibble gives an upper-case digit of the same value. */
  lemma NibbleRoundTrip(n: int)
    requires 0 <= n < 16
    ensures IsUpperHexChar(UpperChar(LowerHexDigit(n)))
    ensures DigitValue(UpperChar(LowerHexDigit(n))) == n
  {
  }

  lemma {:induction false} DecodeUpperEncode(bytes: seq<byte>)
    ensures HexDecode(ToUpperCase(HexEncode(bytes))) == Some(bytes)
    ensures forall i :: 0 <= i < |ToUpperCase(HexEncode(bytes))| ==> IsUpperHexChar(ToUpperCase(HexEncode(bytes))[i])
    decreases |bytes|
  {
    var e := HexEncode(bytes);
    var u := ToUpperCase(e);
    assert forall i :: 0 <= i < |u| ==> IsUpperHexChar(u[i]);
    if bytes != [] {
      DecodeUpperEncode(bytes[1..]);
      var b := bytes[0] as int;
      NibbleRoundTrip(b / 16);
      NibbleRoundTrip(b % 16);
      assert u[2..] == ToUpperCase(HexEncode(bytes[1..]));
      assert [bytes[0]] + bytes[1..] == bytes;
    }
  }

  /** The generated code decodes back to the random bytes it was made from. */
  lemma GeneratedCodeRoundTrip(random: seq<byte>)
    requires |random| == CodeBytes
    ensures HexDecode(GenerateReferralCode(random)) == Some(random)
  {
    DecodeUpperEncode(random);
  }

  /** Distinct draws give distinct codes. */
  lemma GeneratedCodesDistinct(random: seq<byte>, random': seq<byte>)
    requires |random| == CodeBytes && |random'| == CodeBytes && random != random'
    ensures GenerateReferralCode(random) != GenerateReferralCode(random')
  {
    GeneratedCodeRoundTrip(random);
    GeneratedCodeRoundTrip(random');
  }

  // ---------------------------------------------------------------------------
  // Reward schedule

  const MaxTier := 3

  datatype RewardError = InvalidLevel | InvalidXp

  /** The tier percentages 10%, 5% and 2.5%, in thousandths. */
  function PerMille(level: int): int
    requires 1 <= level <= MaxTier
  {
    if level == 1 then 100 else if level == 2 then 50 else 25
  }

  /** calculateReferralReward. For an integral amount, flooring xp times 0.1, 0.05 and
      0.025 is integer division by 10, 20 and 40. */
  function CalculateReferralReward(level: int, xp: int): (r: Result<int, RewardError>)
    ensures r.Success? <==> 1 <= level <= MaxTier && 0 <= xp
    ensures (level < 1 || level > MaxTier) ==> r == Failure(InvalidLevel)
    ensures 1 <= level <= MaxTier && xp < 0 ==> r == Failure(InvalidXp)
    ensures r.Success? ==> 0 <= r.value <= xp
    ensures r.Success? ==> r.value * 1000 <= xp * PerMille(level) < (r.value + 1) * 1000
  {
    if level < 1 || level > MaxTier then Failure(InvalidLevel)
    else if xp < 0 then Failure(InvalidXp)
    else if level == 1 then Success(xp / 10)
    else if level == 2 then Success(xp / 20)
    else Success(xp / 40)
  }

  /** The schedule applied to 1000 points. */
  lemma RewardScheduleOnThousand()
    ensures CalculateReferralReward(1, 1000) == Success(100)
    ensures CalculateReferralReward(2, 1000) == Success(50)
    ensures CalculateReferralReward(3, 1000) == Success(25)
    ensures CalculateReferralReward(4, 1000) == Failure(InvalidLevel)
  {
  }

  /** A deeper tier never earns more than a shallower one. */
  lemma RewardDecreasesWithTier(level: int, xp: int)
    requires 1 <= level < MaxTier && 0 <= xp
    ensures CalculateReferralReward(level + 1, xp).value <= CalculateReferralReward(level, xp).value
  {
  }

  /** For a fixed tier, more points never earn a smaller reward. */
  lemma RewardMonotoneInXp(level: int, xp: int, xp': int)
    requires 1 <= level <= MaxTier && 0 <= xp <= xp'
    ensures CalculateReferralReward(level, xp).value <= CalculateReferralReward(level, xp').value
  {
  }
}

=== FILE: reward_paths.dfy ===
/** How the two reward paths relate: processReferralReward pays along the persisted edges
    (controllers/referralController.js), distributeReferralXP walks the live referredBy
    links (controllers/userController.js). */
module RewardPaths {
  import opened Wrappers
  import opened Ledger
  import opened ReferralUtils
  import opened ReferralChain
  import opened ReferralController
  import opened UserController

  /** For a gain of at least zero the live share and the calculated reward are one number. */
  lemma ShareIsReward(xp: int, tier: int)
    requires 1 <= tier <= MaxTier && xp >= 0
    ensures CalculateReferralReward(tier, xp) == Success(LiveShare(xp, tier))
  {
  }

  lemma {:induction false} EarnedByConcat(users: map<Id, User>, a: seq<Edge>, b: seq<Edge>, userId: Id, xp: int, v: Id)
    ensures EarnedBy(users, a + b, userId, xp, v) == EarnedBy(users, a, userId, xp, v) + EarnedBy(users, b, userId, xp, v)
    decreases |a|
  {
    if a == [] {
      assert a + b == b;
    } else {
      assert (a + b)[1..] == a[1..] + b;
      EarnedByConcat(users, a[1..], b, userId, xp, v);
    }
  }

  /** No edge leads into `userId`. */
  predicate NoEdgesInto(edges: seq<Edge>, userId: Id) {
    forall i :: 0 <= i < |edges| ==> edges[i].referred != userId
  }

  lemma {:induction false} EarnedByNoEdges(users: map<Id, User>, edges: seq<Edge>, userId: Id, xp: int, v: Id)
    requires NoEdgesInto(edges, userId)
    ensures EarnedBy(users, edges, userId, xp, v) == 0
    decreases |edges|
  {
    if edges != [] {
      EarnedByNoEdges(users, edges[1..], userId, xp, v);
    }
  }

  /** The edges a binding creates pay each ancestor what the live walk over the same
      ancestors gives it. */
  lemma {:induction false} BindingEarnings(users: map<Id, User>, ids: seq<Id>, applicant: Id, code: string, now: int,
                                           xp: int, v: Id, j: nat)
    requires |ids| <= MaxTier && j <= |ids| && xp >= 0
    requires forall i :: 0 <= i < |ids| ==> ids[i] in users
    ensures var es := BindingEdges(ids, applicant, code, now);
      EarnedBy(users, es[j..], applicant, xp, v) == LiveGain(ids[j..], v, xp, j + 1)
    decreases |ids| - j
  {
    var es := BindingEdges(ids, applicant, code, now);
    if j < |ids| {
      BindingEarnings(users, ids, applicant, code, now, xp, v, j + 1);
      ShareIsReward(xp, j + 1);
      assert es[j..][1..] == es[j + 1..];
      assert ids[j..][1..] == ids[j + 1..];
      assert es[j..][0] == NewEdge(ids[j], applicant, code, j + 1, now);
    }
  }

  /** Right after a binding, the live ancestors of the applicant are the chain it was
      bound to. */
  lemma BoundAncestors(s: Store, applicant: Id, code: Option<string>, now: int)
    requires CodesUnique(s.users)
    requires ApplyReferralCode(s, applicant, code, now).Success?
    ensures var s1 := ApplyReferralCode(s, applicant, code, now).value;
      var referrer := CodeOwner(s.users, code.value).value;
      && applicant in s1.users
      && LiveAncestors(s1.users, applicant) == Ancestors(ChainOf(s.users, referrer, applicant, MaxTier).value)
  {
    var s1 := ApplyReferralCode(s, applicant, code, now).value;
    var referrer := CodeOwner(s.users, code.value).value;
    var v := Lineage(s.users, Some(referrer), MaxTier);
    ChainRejection(s.users, referrer, applicant, MaxTier);
    LineageAvoiding(s.users, s1.users, applicant, Some(referrer), MaxTier);
    AncestorsOfLinks(Resolved(s.users, v));
  }

  /** Right after a binding, what the persisted edges pay one participant is what the
      live walk over the bound chain gives it. */
  lemma BoundEarnings(s: Store, applicant: Id, code: Option<string>, now: int, xp: int, v: Id)
    requires CodesUnique(s.users)
    requires NoEdgesInto(s.edges, applicant) && xp >= 0
    requires ApplyReferralCode(s, applicant, code, now).Success?
    ensures var s1 := ApplyReferralCode(s, applicant, code, now).value;
      var referrer := CodeOwner(s.users, code.value).value;
      var ids := Ancestors(ChainOf(s.users, referrer, applicant, MaxTier).value);
      |ids| <= MaxTier && EarnedBy(s1.users, s1.edges, applicant, xp, v) == LiveGain(ids, v, xp, 1)
  {
    var s1 := ApplyReferralCode(s, applicant, code, now).value;
    var referrer := CodeOwner(s.users, code.value).value;
    var ids := Ancestors(ChainOf(s.users, referrer, applicant, MaxTier).value);
    var es := BindingEdges(ids, applicant, code.value, now);
    ChainLinkage(s.users, referrer, applicant, MaxTier);
    assert s1.edges == s.edges + es;
    assert es[0..] == es && ids[0..] == ids;
    EarnedByConcat(s1.users, s.edges, es, applicant, xp, v);
    EarnedByNoEdges(s1.users, s.edges, applicant, xp, v);
    BindingEarnings(s1.users, ids, applicant, code.value, now, xp, v, 0);
  }

  /** With no earlier edge into the applicant, the two paths agree right after its binding:
      for any non-negative gain, every participant gets the same xp from the live walk as
      from the persisted edges. */
  lemma PathsAgreeAfterBinding(s: Store, applicant: Id, code: Option<string>, now: int, xp: int, later: int)
    requires CodesUnique(s.users)
    requires NoEdgesInto(s.edges, applicant) && xp >= 0
    requires ApplyReferralCode(s, applicant, code, now).Success?
    ensures var s1 := ApplyReferralCode(s, applicant, code, now).value;
      var live := DistributeReferralXP(s1, applicant, xp);
      var paid := ProcessReferralReward(s1, applicant, xp, later);
      forall v :: v in s1.users ==> live.users[v].xp == paid.users[v].xp
  {
    var s1 := ApplyReferralCode(s, applicant, code, now).value;
    BoundAncestors(s, applicant, code, now);
    DistributeCreditsAncestors(s1, applicant, xp);
    forall v | v in s1.users
      ensures DistributeReferralXP(s1, applicant, xp).users[v].xp == ProcessReferralReward(s1, applicant, xp, later).users[v].xp
    {
      BoundEarnings(s, applicant, code, now, xp, v);
    }
  }

  /** The live walk moves balances and edge totals but never referral earnings. */
  lemma LiveWalkLeavesEarnings(s: Store, userId: Id, xp: int)
    ensures var r := DistributeReferralXP(s, userId, xp);
      forall v :: v in s.users ==> r.users[v].totalReferralXP == s.users[v].totalReferralXP
  {
    if userId in s.users {
      DistributeCreditsAncestors(s, userId, xp);
    }
  }

  // ---------------------------------------------------------------------------
  // Where the paths part: two concrete stores

  const AliceCode := "AAAA0001"
  const BobCode := "BBBB0002"

  function Plain(referredBy: Option<Id>, code: string): User {
    User(Some(code), referredBy, [], [], 0, 0, None, 0, 0, None, 0, 1, 0, None, Profile("", "", "", ""))
  }

  /** Carol (2) bound to Bob's (1) code while Bob had no referrer; Bob then bound to
      Alice's (0) code. The persisted edges are Bob to Carol and Alice to Bob. */
  function LateBinding(): Store {
    Store(map[0 := Plain(None, AliceCode), 1 := Plain(Some(0), BobCode), 2 := Plain(Some(1), "CCCC0003")],
          [NewEdge(1, 2, BobCode, 1, 0), NewEdge(0, 1, AliceCode, 1, 0)])
  }

  /** When Carol earns 100, the live walk gives Alice her tier-2 share of 5, but no edge
      runs from Alice to Carol, so the persisted path gives her nothing. */
  lemma PathsDivergeAfterLateBinding()
    ensures DistributeReferralXP(LateBinding(), 2, 100).users[0].xp == 5
    ensures ProcessReferralReward(LateBinding(), 2, 100, 0).users[0].xp == 0
  {
    var s := LateBinding();
    assert Lineage(s.users, Some(0), 1) == [0];
    assert Lineage(s.users, Some(1), 2) == [1, 0];
    assert Lineage(s.users, Some(1), 3) == [1, 0];
    assert LiveAncestors(s.users, 2) == [1, 0];
    DistributeCreditsAncestors(s, 2, 100);
    assert LiveGain([1, 0], 0, 100, 1) == 5;
    assert EarnedBy(s.users, s.edges[1..], 2, 100, 0) == 0;
  }

  /** The live walk records a reward on Bob's edge into Carol without adding it to Bob's
      referral earnings, so a store whose earnings matched its edge totals stops matching. */
  lemma LiveWalkUnbalances()
    ensures Balanced(Store(LateBinding().users, LateBinding().edges[..1]))
    ensures !Balanced(DistributeReferralXP(Store(LateBinding().users, LateBinding().edges[..1]), 2, 100))
  {
    var s := Store(LateBinding().users, LateBinding().edges[..1]);
    assert Lineage(s.users, Some(0), 1) == [0];
    assert Lineage(s.users, Some(1), 2) == [1, 0];
    assert Lineage(s.users, Some(1), 3) == [1, 0];
    assert LiveAncestors(s.users, 2) == [1, 0];
    DistributeBumpsEdges(s, 2, 100);
    LiveWalkLeavesEarnings(s, 2, 100);
    var r := DistributeReferralXP(s, 2, 100);
    assert FirstEdge(s.edges, 1, 2, 0) == Some(0);
    assert r.edges[0].totalRewardsDistributed == 10;
    assert Distributed(r.edges, 1) == 10;
    assert r.users[1].totalReferralXP == 0;
  }
}

=== FILE: user_controller.dfy ===
/** The per-participant transitions of controllers/userController.js: the live
    chain-walk reward path, the daily claim, boosts, profile edits and GPU upgrades. */
module UserController {
  import opened Wrappers
  import opened Ledger
  import opened ReferralUtils
  import opened ReferralChain

  datatype UserError = UserNotFound | AlreadyClaimed(nextClaimTime: int) | NoBoostAvailable | InvalidUpdates

  // ---------------------------------------------------------------------------
  // distributeReferralXP: rewards along the live referredBy chain

  /** The live walk's share: the gain times 10, 5 or 2.5 per cent for tiers 1, 2 and 3,
      rounded down. The gain is not checked for sign, so a negative gain is rounded down
      too. */
  function LiveShare(xp: int, tier: int): (share: int)
    requires 1 <= tier <= MaxTier
    ensures share * 1000 <= xp * PerMille(tier) < (share + 1) * 1000
  {
    if tier == 1 then xp / 10 else if tier == 2 then xp / 20 else xp / 40
  }

  /** `findOneAndUpdate` matches the first edge, in store order, from `referrer` to `referred`,
      whatever its tier and status. */
  function FirstEdge(edges: seq<Edge>, referrer: Id, referred: Id, from: nat): (r: Option<nat>)
    requires from <= |edges|
    ensures r.Some? ==>
      && from <= r.value < |edges|
      && edges[r.value].referrer == referrer && edges[r.value].referred == referred
      && (forall j :: from <= j < r.value ==> !(edges[j].referrer == referrer && edges[j].referred == referred))
    ensures r.None? ==> forall j :: from <= j < |edges| ==> !(edges[j].referrer == referrer && edges[j].referred == referred)
    decreases |edges| - from
  {
    if from == |edges| then None
    else if edges[from].referrer == referrer && edges[from].referred == referred then Some(from)
    else FirstEdge(edges, referrer, referred, from + 1)
  }

  /** `$inc` of the matched edge's reward total, if an edge matches. */
  function BumpFirstEdge(edges: seq<Edge>, referrer: Id, referred: Id, amount: int): seq<Edge> {
    match FirstEdge(edges, referrer, referred, 0)
    case None => edges
    case Some(i) => edges[i := edges[i].(totalRewardsDistributed := edges[i].totalRewardsDistributed + amount)]
  }

  /** One iteration of the loop: credit ancestor `a` with `amount` and bump the first
      edge from `a` to `userId` by the same amount. An id with no record is skipped. */
  function Credit(s: Store, a: Id, userId: Id, amount: int): (r: Store)
    ensures r.users.Keys == s.users.Keys && SameEnds(s.edges, r.edges)
  {
    if a !in s.users then s
    else
      var u := s.users[a];
      Store(s.users[a := u.(xp := u.xp + amount)], BumpFirstEdge(s.edges, a, userId, amount))
  }

  /** Crediting `a` changes only `a`'s xp. */
  lemma CreditUser(s: Store, a: Id, userId: Id, amount: int, v: Id)
    requires v in s.users
    ensures Credit(s, a, userId, amount).users[v] == s.users[v].(xp := s.users[v].xp + (if v == a then amount else 0))
  {
  }

  /** Crediting `a` moves only the total of the first edge from `a` to `userId`. */
  lemma CreditEdge(s: Store, a: Id, userId: Id, amount: int, i: nat)
    requires i < |s.edges|
    ensures Credit(s, a, userId, amount).edges[i] == s.edges[i].(totalRewardsDistributed := s.edges[i].totalRewardsDistributed
      + (if a in s.users && FirstEdge(s.edges, a, userId, 0) == Some(i) then amount else 0))
  {
  }

  /** The loop of distributeReferralXP from `current` at `tier`: credit the ancestor, step
      to its referrer, until tier 3 is done or the chain ends. */
  function LiveWalk(s: Store, userId: Id, current: Option<Id>, tier: nat, xp: int): Store
    requires tier >= 1
    decreases MaxTier + 1 - tier
  {
    if current.None? || current.value !in s.users || tier > MaxTier then s
    else
      var a := current.value;
      LiveWalk(Credit(s, a, userId, LiveShare(xp, tier)), userId, s.users[a].referredBy, tier + 1, xp)
  }

  /** Crediting a fixed list of ancestors, the first at `tier`. */
  function CreditAlong(s: Store, a: seq<Id>, userId: Id, tier: nat, xp: int): Store
    requires 1 <= tier && tier + |a| <= MaxTier + 1
    decreases |a|
  {
    if a == [] then s
    else CreditAlong(Credit(s, a[0], userId, LiveShare(xp, tier)), a[1..], userId, tier + 1, xp)
  }

  /** The ancestors the live walk credits, tier 1 first: the resolved part of the lineage
      of the participant's referrer, at most three deep. */
  function LiveAncestors(users: map<Id, User>, userId: Id): seq<Id>
    requires userId in users
  {
    Resolved(users, Lineage(users, users[userId].referredBy, MaxTier))
  }

  /** What the ancestors `a`, credited from `tier` on, give to `v`. */
  function LiveGain(a: seq<Id>, v: Id, xp: int, tier: int): int
    requires 1 <= tier && tier + |a| <= MaxTier + 1
    decreases |a|
  {
    if a == [] then 0
    else
      var own := if a[0] == v then LiveShare(xp, tier) else 0;
      own + LiveGain(a[1..], v, xp, tier + 1)
  }

  /** What the ancestors `a`, credited from `tier` on, add to the edge at index `i`: each
      adds its share to the first edge from it to `userId`. */
  function LiveEdgeGain(edges: seq<Edge>, a: seq<Id>, userId: Id, i: nat, xp: int, tier: int): int
    requires 1 <= tier && tier + |a| <= MaxTier + 1
    decreases |a|
  {
    if a == [] then 0
    else
      var own := if FirstEdge(edges, a[0], userId, 0) == Some(i) then LiveShare(xp, tier) else 0;
      own + LiveEdgeGain(edges, a[1..], userId, i, xp, tier + 1)
  }

  /** distributeReferralXP: a participant with no record changes nothing; otherwise the
      live walk from its referrer at tier 1. */
  function DistributeReferralXP(s: Store, userId: Id, xp: int): (r: Store)
    ensures r.users.Keys == s.users.Keys && |r.edges| == |s.edges|
    ensures userId !in s.users ==> r == s
  {
    if userId !in s.users then s
    else
      var start := s.users[userId].referredBy;
      LiveWalkCreditsLineage(s, userId, start, 1, xp);
      CreditAlongKeys(s, LiveAncestors(s.users, userId), userId, 1, xp);
      LiveWalk(s, userId, start, 1, xp)
  }

  /** Who the live walk credits does not depend on the balances it changes: each of the
      (at most three) resolved ancestors of the participant gains its tier's share, and no
      other field of any record moves. */
  lemma DistributeCreditsAncestors(s: Store, userId: Id, xp: int)
    requires userId in s.users
    ensures var r := DistributeReferralXP(s, userId, xp);
      var a := LiveAncestors(s.users, userId);
      && |a| <= MaxTier
      && forall v :: v in s.users ==> r.users[v] == s.users[v].(xp := s.users[v].xp + LiveGain(a, v, xp, 1))
  {
    var a := LiveAncestors(s.users, userId);
    LiveWalkCreditsLineage(s, userId, s.users[userId].referredBy, 1, xp);
    forall v | v in s.users
      ensures CreditAlong(s, a, userId, 1, xp).users[v] == s.users[v].(xp := s.users[v].xp + LiveGain(a, v, xp, 1))
    {
      CreditAlongUser(s, a, userId, 1, xp, v);
    }
  }

  /** Each ancestor's share also goes to the first edge, in store order, from that ancestor
      to the participant; edges without such a match keep their totals. */
  lemma DistributeBumpsEdges(s: Store, userId: Id, xp: int)
    requires userId in s.users
    ensures var r := DistributeReferralXP(s, userId, xp);
      var a := LiveAncestors(s.users, userId);
      && |a| <= MaxTier
      && forall i :: 0 <= i < |s.edges| ==>
           r.edges[i] == s.edges[i].(totalRewardsDistributed :=
             s.edges[i].totalRewardsDistributed + LiveEdgeGain(s.edges, a, userId, i, xp, 1))
  {
    var start := s.users[userId].referredBy;
    var a := LiveAncestors(s.users, userId);
    LiveWalkCreditsLineage(s, userId, start, 1, xp);
    ResolvedInUsers(s.users, start, MaxTier);
    forall i | 0 <= i < |s.edges|
      ensures CreditAlong(s, a, userId, 1, xp).edges[i] == s.edges[i].(totalRewardsDistributed :=
        s.edges[i].totalRewardsDistributed + LiveEdgeGain(s.edges, a, userId, i, xp, 1))
    {
      CreditAlongEdge(s, s.edges, a, userId, 1, xp, i);
    }
  }

  /** Lineage reads only the key set and the referredBy links. */
  lemma {:induction false} LineageSameLinks(users: map<Id, User>, users': map<Id, User>, start: Option<Id>, k: nat)
    requires users.Keys == users'.Keys
    requires forall v :: v in users ==> users'[v].referredBy == users[v].referredBy
    ensures Lineage(users', start, k) == Lineage(users, start, k)
    decreases k
  {
    if k > 0 && start.Some? && start.value in users {
      LineageSameLinks(users, users', users[start.value].referredBy, k - 1);
    }
  }

  lemma ResolvedCons(users: map<Id, User>, a: Id, w: seq<Id>)
    requires a in users
    ensures Resolved(users, [a] + w) == [a] + Resolved(users, w)
  {
    if w != [] && w[|w| - 1] !in users {
      assert ([a] + w)[..|w|] == [a] + w[..|w| - 1];
    }
  }

  /** Every id the resolved lineage keeps has a record. */
  lemma ResolvedInUsers(users: map<Id, User>, start: Option<Id>, k: nat)
    ensures var a := Resolved(users, Lineage(users, start, k));
      forall j :: 0 <= j < |a| ==> a[j] in users
  {
    LineageLinked(users, start, k);
  }

  /** Two edge lists with the same endpoints at every index. */
  predicate SameEnds(edges: seq<Edge>, edges': seq<Edge>) {
    |edges'| == |edges|
    && forall j :: 0 <= j < |edges| ==> edges'[j].referrer == edges[j].referrer && edges'[j].referred == edges[j].referred
  }

  lemma {:induction false} FirstEdgeSameEnds(edges: seq<Edge>, edges': seq<Edge>, x: Id, y: Id, from: nat)
    requires SameEnds(edges, edges') && from <= |edges|
    ensures FirstEdge(edges', x, y, from) == FirstEdge(edges, x, y, from)
    decreases |edges| - from
  {
    if from < |edges| {
      FirstEdgeSameEnds(edges, edges', x, y, from + 1);
    }
  }

  /** One step of the lineage: a resolved id followed by its referrer's lineage. */
  lemma ResolvedLineageStep(users: map<Id, User>, id: Id, k: nat)
    requires id in users && k > 0
    ensures Resolved(users, Lineage(users, Some(id), k))
      == [id] + Resolved(users, Lineage(users, users[id].referredBy, k - 1))
  {
    ResolvedCons(users, id, Lineage(users, users[id].referredBy, k - 1));
  }

  /** The walk credits exactly the resolved lineage of `current`: crediting changes no
      referredBy link, so the ids it visits are fixed before it starts. */
  lemma {:induction false} LiveWalkCreditsLineage(s: Store, userId: Id, current: Option<Id>, tier: nat, xp: int)
    requires 1 <= tier <= MaxTier + 1
    ensures var a := Resolved(s.users, Lineage(s.users, current, MaxTier + 1 - tier));
      && tier + |a| <= MaxTier + 1
      && LiveWalk(s, userId, current, tier, xp) == CreditAlong(s, a, userId, tier, xp)
    decreases MaxTier + 1 - tier
  {
    var k := MaxTier + 1 - tier;
    var a := Resolved(s.users, Lineage(s.users, current, k));
    if current.Some? && current.value in s.users && tier <= MaxTier {
      var id := current.value;
      var s1 := Credit(s, id, userId, LiveShare(xp, tier));
      LiveWalkCreditsLineage(s1, userId, s.users[id].referredBy, tier + 1, xp);
      forall v | v in s.users
        ensures s1.users[v].referredBy == s.users[v].referredBy
      {
        CreditUser(s, id, userId, LiveShare(xp, tier), v);
      }
      LineageSameLinks(s.users, s1.users, s.users[id].referredBy, k - 1);
      ResolvedLineageStep(s.users, id, k);
      assert a[1..] == Resolved(s1.users, Lineage(s1.users, s.users[id].referredBy, k - 1));
    } else {
      assert a == [];
    }
  }

  /** What crediting a list of ancestors does to one participant `v`. */
  lemma {:induction false} CreditAlongUser(s: Store, a: seq<Id>, userId: Id, tier: nat, xp: int, v: Id)
    requires 1 <= tier && tier + |a| <= MaxTier + 1
    requires v in s.users
    ensures var r := CreditAlong(s, a, userId, tier, xp);
      && r.users.Keys == s.users.Keys
      && r.users[v] == s.users[v].(xp := s.users[v].xp + LiveGain(a, v, xp, tier))
    decreases |a|
  {
    if a != [] {
      var s1 := Credit(s, a[0], userId, LiveShare(xp, tier));
      CreditUser(s, a[0], userId, LiveShare(xp, tier), v);
      CreditAlongUser(s1, a[1..], userId, tier + 1, xp, v);
    }
  }

  lemma {:induction false} CreditAlongKeys(s: Store, a: seq<Id>, userId: Id, tier: nat, xp: int)
    requires 1 <= tier && tier + |a| <= MaxTier + 1
    ensures var r := CreditAlong(s, a, userId, tier, xp);
      r.users.Keys == s.users.Keys && SameEnds(s.edges, r.edges)
    decreases |a|
  {
    if a != [] {
      CreditAlongKeys(Credit(s, a[0], userId, LiveShare(xp, tier)), a[1..], userId, tier + 1, xp);
    }
  }

  /** What crediting a list of ancestors does to the edge at index `i`; `ends` is the edge
      list the matches are computed on, which crediting does not re-route. */
  lemma {:induction false} CreditAlongEdge(s: Store, ends: seq<Edge>, a: seq<Id>, userId: Id, tier: nat, xp: int, i: nat)
    requires 1 <= tier && tier + |a| <= MaxTier + 1
    requires SameEnds(ends, s.edges) && i < |s.edges|
    requires forall j :: 0 <= j < |a| ==> a[j] in s.users
    ensures var r := CreditAlong(s, a, userId, tier, xp);
      && |r.edges| == |s.edges|
      && r.edges[i] == s.edges[i].(totalRewardsDistributed :=
           s.edges[i].totalRewardsDistributed + LiveEdgeGain(ends, a, userId, i, xp, tier))
    decreases |a|
  {
    if a != [] {
      var s1 := Credit(s, a[0], userId, LiveShare(xp, tier));
      FirstEdgeSameEnds(ends, s.edges, a[0], userId, 0);
      CreditEdge(s, a[0], userId, LiveShare(xp, tier), i);
      CreditAlongEdge(s1, ends, a[1..], userId, tier + 1, xp, i);
    }
  }

  // ---------------------------------------------------------------------------
  // claimDailyXP and checkDailyXPClaimable

  const DayMs := 24 * 60 * 60 * 1000
  const DailyXp := 100

  /** Whether a day has passed since the last claim, as both handlers compute it: the hours
      since the claim are compared with 24. A missing date reads as an invalid date, whose
      difference is NaN, and every comparison with NaN is false. */
  predicate ClaimedWithinDay(last: Option<int>, now: int) {
    last.Some? && now - last.value < DayMs
  }

  predicate DayHasPassed(last: Option<int>, now: int) {
    last.Some? && now - last.value >= DayMs
  }

  /** claimDailyXP: rejected, with the time a day after the last claim, when that day has not
      passed; otherwise 100 xp, the claim date and one more streak day. */
  function ClaimDailyXP(s: Store, id: Id, now: int): (r: Result<Store, UserError>)
    ensures id !in s.users ==> r == Failure(UserNotFound)
    ensures id in s.users ==>
      var u := s.users[id];
      && (r.Failure? <==> ClaimedWithinDay(u.lastDailyClaimDate, now))
      && (r.Failure? ==> r.error == AlreadyClaimed(u.lastDailyClaimDate.value + DayMs))
      && (r.Success? ==>
            && r.value.edges == s.edges
            && r.value.users.Keys == s.users.Keys
            && (forall v :: v in s.users && v != id ==> r.value.users[v] == s.users[v])
            && r.value.users[id].xp == u.xp + DailyXp
            && r.value.users[id].checkInStreak == u.checkInStreak + 1
            && r.value.users[id].lastDailyClaimDate == Some(now)
            && r.value.users[id].(xp := u.xp, checkInStreak := u.checkInStreak,
                                  lastDailyClaimDate := u.lastDailyClaimDate) == u)
  {
    if id !in s.users then Failure(UserNotFound)
    else
      var u := s.users[id];
      if ClaimedWithinDay(u.lastDailyClaimDate, now) then
        Failure(AlreadyClaimed(u.lastDailyClaimDate.value + DayMs))
      else
        var u' := u.(xp := u.xp + DailyXp, lastDailyClaimDate := Some(now),
                     checkInStreak := u.checkInStreak + 1);
        Success(Store(s.users[id := u'], s.edges))
  }

  /** The answer of checkDailyXPClaimable; an invalid date is `None`. */
  datatype Claimability = Claimability(isClaimable: bool, nextClaimTime: Option<int>, checkInStreak: int)

  /** checkDailyXPClaimable: claimable once a day has passed, and then the next claim time is
      now; otherwise a day after the last claim (an invalid date when there is none). */
  function CheckDailyXPClaimable(s: Store, id: Id, now: int): (r: Result<Claimability, UserError>)
    ensures id !in s.users ==> r == Failure(UserNotFound)
    ensures id in s.users ==>
      var u := s.users[id];
      && r.Success?
      && r.value.checkInStreak == u.checkInStreak
      && (r.value.isClaimable <==> DayHasPassed(u.lastDailyClaimDate, now))
      && (r.value.isClaimable ==> r.value.nextClaimTime == Some(now))
      && (u.lastDailyClaimDate.None? ==> r.value.nextClaimTime.None?)
      && (u.lastDailyClaimDate.Some? && !r.value.isClaimable ==>
            r.value.nextClaimTime == Some(u.lastDailyClaimDate.value + DayMs))
  {
    if id !in s.users then Failure(UserNotFound)
    else
      var u := s.users[id];
      var claimable := DayHasPassed(u.lastDailyClaimDate, now);
      var next :=
        if claimable then Some(now)
        else if u.lastDailyClaimDate.None? then None
        else Some(u.lastDailyClaimDate.value + DayMs);
      Success(Claimability(claimable, next, u.checkInStreak))
  }

  /** For a participant who has claimed before, the check and the claim agree: the claim is
      accepted exactly when the check says claimable, and a rejected claim names the check's
      next claim time. */
  lemma CheckPredictsClaim(s: Store, id: Id, now: int)
    requires id in s.users && s.users[id].lastDailyClaimDate.Some?
    ensures var c := CheckDailyXPClaimable(s, id, now).value;
      var r := ClaimDailyXP(s, id, now);
      && (r.Success? <==> c.isClaimable)
      && (r.Failure? ==> r.error.nextClaimTime == c.nextClaimTime.value)
  {
  }

  /** A participant without a claim date can claim, yet the check reports not claimable. */
  lemma NeverClaimedDisagreement(s: Store, id: Id, now: int)
    requires id in s.users && s.users[id].lastDailyClaimDate.None?
    ensures ClaimDailyXP(s, id, now).Success?
    ensures !CheckDailyXPClaimable(s, id, now).value.isClaimable
  {
  }

  /** After a claim at `now`, a claim less than a day later is rejected with the time one day
      after `now`, and one a day or more later is accepted. */
  lemma ClaimOncePerDay(s: Store, id: Id, now: int, later: int)
    requires id in s.users && ClaimDailyXP(s, id, now).Success?
    ensures var s1 := ClaimDailyXP(s, id, now).value;
      && (later - now < DayMs ==> ClaimDailyXP(s1, id, later) == Failure(AlreadyClaimed(now + DayMs)))
      && (later - now >= DayMs ==> ClaimDailyXP(s1, id, later).Success?)
  {
  }

  // ---------------------------------------------------------------------------
  // boost

  const BoostTaps := 10 * (10 * 1000 / 1000)

  /** boost: needs at least one boost; spends it, records the time, adds the boost's 100 taps,
      credits 100 taps' worth of compute power to both xp and compute, and clears the cooldown. */
  function Boost(s: Store, id: Id, now: int): (r: Result<Store, UserError>)
    ensures id !in s.users ==> r == Failure(UserNotFound)
    ensures r.Success? ==> r.value.users.Keys == s.users.Keys && r.value.edges == s.edges
    ensures id in s.users ==>
      var u := s.users[id];
      && (r.Failure? <==> u.boostCount < 1)
      && (r.Failure? ==> r.error == NoBoostAvailable)
      && (r.Success? ==>
            var u' := r.value.users[id];
            && (forall v :: v in s.users && v != id ==> r.value.users[v] == s.users[v])
            && u'.xp - u.xp == u'.compute - u.compute == 100 * u.computePower
            && u'.totalTaps == u.totalTaps + 100
            && u'.boostCount == u.boostCount - 1 >= 0
            && u'.lastBoostTime == Some(now) && u'.cooldownEndTime.None?
            && u'.referralChain == u.referralChain && u'.referredBy == u.referredBy
            && u'.totalReferralXP == u.totalReferralXP && u'.computePower == u.computePower
            && u'.(boostCount := u.boostCount, lastBoostTime := u.lastBoostTime, totalTaps := u.totalTaps,
                   xp := u.xp, compute := u.compute, cooldownEndTime := u.cooldownEndTime) == u)
  {
    if id !in s.users then Failure(UserNotFound)
    else
      var u := s.users[id];
      if u.boostCount < 1 then Failure(NoBoostAvailable)
      else
        var gained := BoostTaps * u.computePower;
        var u' := u.(boostCount := u.boostCount - 1, lastBoostTime := Some(now),
                     totalTaps := u.totalTaps + BoostTaps, xp := u.xp + gained,
                     compute := u.compute + gained, cooldownEndTime := None);
        Success(Store(s.users[id := u'], s.edges))
  }

  /** A participant with `n` boosts can boost exactly `n` times in a row. */
  lemma {:induction false} BoostsAreCounted(s: Store, id: Id, n: nat, now: int)
    requires id in s.users && s.users[id].boostCount == n
    ensures BoostN(s, id, n, now).Success?
    ensures Boost(BoostN(s, id, n, now).value, id, now) == Failure(NoBoostAvailable)
    decreases n
  {
    if n > 0 {
      var s1 := Boost(s, id, now).value;
      BoostsAreCounted(s1, id, n - 1, now);
    }
  }

  /** `n` boosts in a row at the same time. */
  function BoostN(s: Store, id: Id, n: nat, now: int): (r: Result<Store, UserError>)
    ensures r.Success? ==> id in s.users ==> id in r.value.users && r.value.users.Keys == s.users.Keys
    decreases n
  {
    if n == 0 then Success(s)
    else
      match Boost(s, id, now)
      case Failure(e) => Failure(e)
      case Success(s1) => BoostN(s1, id, n - 1, now)
  }

  // ---------------------------------------------------------------------------
  // upgradeGPU

  /** upgradeGPU: one more unit of compute power; nothing else moves. */
  function UpgradeGPU(s: Store, id: Id): (r: Result<Store, UserError>)
    ensures id !in s.users <==> r.Failure?
    ensures r.Failure? ==> r.error == UserNotFound
    ensures r.Success? ==>
      && r.value.edges == s.edges
      && r.value.users.Keys == s.users.Keys
      && (forall v :: v in s.users && v != id ==> r.value.users[v] == s.users[v])
      && r.value.users[id].computePower == s.users[id].computePower + 1
      && r.value.users[id].(computePower := s.users[id].computePower) == s.users[id]
  {
    if id !in s.users then Failure(UserNotFound)
    else
      var u := s.users[id];
      Success(Store(s.users[id := u.(computePower := u.computePower + 1)], s.edges))
  }

  /** Each upgrade makes every later boost credit 100 more xp. */
  lemma BoostGainGrowsWithUpgrade(s: Store, id: Id, now: int)
    requires id in s.users && s.users[id].boostCount >= 1
    ensures var before := Boost(s, id, now).value.users[id];
      var after := Boost(UpgradeGPU(s, id).value, id, now).value.users[id];
      after.xp == before.xp + 100
  {
  }

  // ---------------------------------------------------------------------------
  // updateProfile

  /** The request body's keys that updateProfile accepts. */
  const AllowedUpdates: set<string> := {"username", "avatarUrl", "language", "theme"}

  /** Each allowed key present in the body overwrites its field. */
  function ApplyUpdates(p: Profile, body: map<string, string>): Profile {
    Profile(
      if "username" in body then body["username"] else p.username,
      if "avatarUrl" in body then body["avatarUrl"] else p.avatarUrl,
      if "language" in body then body["language"] else p.language,
      if "theme" in body then body["theme"] else p.theme)
  }

  /** updateProfile on the authenticated participant: any key outside the four profile fields
      rejects the whole body; otherwise the listed fields are overwritten and nothing else. */
  function UpdateProfile(u: User, body: map<string, string>): (r: Result<User, UserError>)
    ensures r.Failure? <==> exists k :: k in body && k !in AllowedUpdates
    ensures r.Failure? ==> r.error == InvalidUpdates
    ensures r.Success? ==>
      && r.value.(profile := u.profile) == u
      && (forall k :: k in body ==>
            (k == "username" ==> r.value.profile.username == body[k])
            && (k == "avatarUrl" ==> r.value.profile.avatarUrl == body[k])
            && (k == "language" ==> r.value.profile.language == body[k])
            && (k == "theme" ==> r.value.profile.theme == body[k]))
      && ("username" !in body ==> r.value.profile.username == u.profile.username)
      && ("avatarUrl" !in body ==> r.value.profile.avatarUrl == u.profile.avatarUrl)
      && ("language" !in body ==> r.value.profile.language == u.profile.language)
      && ("theme" !in body ==> r.value.profile.theme == u.profile.theme)
  {
    if body.Keys <= AllowedUpdates then Success(u.(profile := ApplyUpdates(u.profile, body)))
    else Failure(InvalidUpdates)
  }

  /** Sending the same body twice leaves the participant as sending it once. */
  lemma UpdateProfileIdempotent(u: User, body: map<string, string>)
    requires UpdateProfile(u, body).Success?
    ensures UpdateProfile(UpdateProfile(u, body).value, body) == UpdateProfile(u, body)
  {
  }

  /** An empty body is accepted and changes nothing. */
  lemma UpdateProfileEmpty(u: User)
    ensures UpdateProfile(u, map[]) == Success(u)
  {
  }
}

=== FILE: wrappers.dfy ===
/** Option and Result, the failure-compatible wrappers every other module uses. */
module Wrappers {

  datatype Option<+T> = None | Some(value: T) {
    predicate IsFailure() {
      None?
    }

    function PropagateFailure<U>(): Option<U>
      requires None?
    {
      None
    }

    function Extract(): T
      requires Some?
    {
      value
    }
  }

  /** The outcome of an operation that can be rejected; a rejection carries no new state. */
  datatype Result<+R, +E> = Success(value: R) | Failure(error: E) {
    predicate IsFailure() {
      Failure?
    }

    function PropagateFailure<U>(): Result<U, E>
      requires Failure?
    {
      Failure(error)
    }

    function Extract(): R
      requires Success?
    {
      value
    }
  }
}
